=== FILE: README.md ===
# rust-pop3-client, modelled in Dafny

A model of the client side of the POP3 library `rust-pop3-client`, with
proofs about it. It covers:

- `LineReader`, the fixed 512-byte buffer that turns a byte stream into
  lines;
- the response engine of `Pop3Connection`: status lines, multi-line bodies
  with the dot rule, and the parsing behind each public command.

## Files

| file | module | contents |
|---|---|---|
| `base.dfy` | `Base` | bytes, `u32`, `Option`/`Result`, the library's error kinds, `IndexOf`, small sequence lemmas |
| `utf8.dfy` | `Utf8` | `str::as_bytes` and `str::from_utf8` (well-formed UTF-8 only), their round trips, and `str::trim` over Unicode White_Space |
| `text.dfy` | `Text` | `str::split(' ')`, `u32` parsing (`str::parse::<u32>`), and `{}` formatting of numbers |
| `line_reader.dfy` | `LineReader` | `LineReader::new`, `get_eol` and `read_line`, plus the generalized unit tests |
| `response.dfy` | `Response` | `read_status_line`, `invoke_single_line`, `invoke_multi_line` and the dot rule |
| `session.dfy` | `Session` | `with_custom_certs` after the transport is up, `login`, `stat`, `list`, `get_message_size`, `retrieve`, `delete`, `reset`, `top`, `list_unique_ids`, `get_unique_id` |
| `exchanges.dfy` | `Exchanges` | a server's side of the replies, and whole command/reply exchanges proved end to end |
| `scenarios.dfy` | `Scenarios` | the unit tests of `src/line_reader.rs` and worked examples from RFC 1939 |

## How the model is built

**Transport.** The transport is a *script*: a sequence of chunks, each
either `Data(bytes)` or `Fault(reason)`.

- A `read` into the free part of the buffer takes as much of the next data
  chunk as fits, and leaves the rest at the head of the script.
- A `Fault` chunk is the `?` on a failed read.
- `Stream(script)` is every byte the script will deliver.

When the script is exhausted, the model reports the model-only error
`Stalled`. That stands for two behaviours of the Rust code:

- while the connection is open but quiet, `read` blocks;
- at end of stream `read` returns `Ok(0)`, and the loop of `read_line`
  (src/line_reader.rs:35-40) runs forever with `pos += 0`.

**Writes.** Commands are not written to a socket. They are appended to the
connection's `outgoing` bytes.

**Errors.** `Box<dyn Error>` values become an `Error` datatype:

- `Io` for transport errors;
- `BufferExceeded`, `InvalidUtf8` and `NoLineAvailable` for the line reader;
- `Negative(line)` for a status line not starting with `+OK`;
- `Missing(field)` for `ok_or("missing …")`;
- `BadNumber(kind)` for a failed `parse::<u32>`.

**Central property: what a read returns.** Let S be the buffered bytes
followed by `Stream(script)`. Then a successful `read_line`:

- returns the trimmed UTF-8 text of the bytes before the first line feed
  of S;
- leaves buffered or unread exactly the bytes after that line feed.

Over a script without faults, the result depends only on S and not on how
the transport split it into reads (`ReadLineMatchesExpected`).

**Multi-line replies.**

- The server's side is stated as the dot-stuffing of RFC 1939, section 3.
  The dot rule of `invoke_multi_line` is proved to undo it.
- Every body line is trimmed before the dot rule is applied. So a line such
  as " . " also ends the body (`TrimmedTerminator`).

**Two details of the code that the model keeps.**

- A negative status line becomes an error carrying the *whole* line, with
  "-ERR" kept.
- `read_line` trims whitespace at *both* ends (`str::trim`), so a body line
  loses its indentation as well as its carriage return (`TrimmedIndent`,
  `RetrieveFramed`).

## Model

| member | source | states |
|---|---|---|
| LineReader.New | src/line_reader.rs:15-17 | a new reader has the 512-byte buffer and nothing buffered |
| LineReader.GetEol | src/line_reader.rs:19-27 | None exactly when no buffered byte is 0x0a; otherwise the position of the first 0x0a before the cursor |
| LineReader.ScanEol | src/line_reader.rs:19-27 | the scanning loop returns the same position as `GetEol` |
| LineReader.ReadInto | src/line_reader.rs:39-40 | one read takes bytes from the first chunk only: the whole chunk when it fits the free room, otherwise its first `room` bytes, with the remainder left at the head of the source. So the bytes returned, followed by what stays in the source, are exactly what the source held. An exhausted source blocks; a fault fails with its reason and is consumed, delivering nothing |
| LineReader.Fill | src/line_reader.rs:30-41 | the read loop neither loses nor invents bytes (buffered + unread is unchanged). It stops in one of four ways: ready with a line feed buffered (at once if one already was); "buffer exceeded", exactly when it stops with 512 bytes buffered and no line feed among them; `Stalled`, when the source runs out with room left and no line feed; or with a transport error, which only a faulty source produces and only while there is room and no line feed |
| LineReader.Consume | src/line_reader.rs:45-47 | dropping the first `n` buffered bytes keeps the 512-byte buffer and leaves exactly the buffered bytes after them |
| LineReader.Append | src/line_reader.rs:39-40 | a read of `k` bytes into the free room advances the cursor by `k` and appends exactly those bytes to the buffered ones |
| LineReader.FillStopsAtLine | src/line_reader.rs:30-41 | with no line feed buffered and a first chunk that fits and holds one, the loop reads exactly that chunk and leaves the rest of the source unread |
| LineReader.FillStopsInChunk | src/line_reader.rs:30-41 | when the first chunk is longer than the room left and a line feed falls within the room, the loop fills the buffer and leaves the chunk's remainder at the head of the source |
| LineReader.FillLoop | src/line_reader.rs:30-41 | the imperative loop computes the same outcome as `Fill` |
| LineReader.TakeLine | src/line_reader.rs:43-49 | after the loop, either the trimmed text before the first line feed is returned and the bytes after it remain, or the bytes are not UTF-8 and the reader is left exactly as it was |
| LineReader.ReadLine | src/line_reader.rs:29-52 | `read_line` never reports "no line available". Its only errors are invalid UTF-8, buffer exceeded, an exhausted source, or a transport error from a faulty source. A successful call strictly consumes input |
| LineReader.ReadLineStopsAtLine | src/line_reader.rs:29-52 | `read_line` does not read past the chunk that brings in a line feed: the rest of the source is left untouched |
| LineReader.ReadLineStopsInChunk | src/line_reader.rs:29-52 | when the line feed arrives within the room left of a longer chunk, `read_line` leaves exactly that chunk's overflow and the rest of the source |
| LineReader.ReadLineLoop | src/line_reader.rs:29-52 | the imperative `read_line` computes the same result, reader and rest of source as `ReadLine` |
| LineReader.ReadLineSuccess | src/line_reader.rs:43-48 | a returned line is the trimmed decoding of the bytes before the first line feed of the whole stream, and exactly the bytes after that line feed remain |
| LineReader.ReadLineInvalid | src/line_reader.rs:44 | a line that is not UTF-8 is reported with nothing consumed: the reader still holds it, line feed included |
| LineReader.ReadLineExceeded | src/line_reader.rs:35-37 | "buffer exceeded" means the buffer is full, holds no line feed, and no byte was lost |
| LineReader.ReadLineStalled | src/line_reader.rs:39-40 | an exhausted source leaves everything it delivered buffered, with no line feed among it |
| LineReader.ReadLineMatchesExpected | src/line_reader.rs:29-52 | over a fault-free source, the result depends only on the byte stream, not on how reads split it |
| LineReader.ReadLineTooLong | src/line_reader.rs:35-37 | if the first 512 bytes of the stream hold no line feed, the call fails with "buffer exceeded" |
| LineReader.ReadLineLongest | src/line_reader.rs:29-52 | a 511-byte line and its line feed still fit and are returned |
| LineReader.ReadLineFramed | src/line_reader.rs:43-48 | text without a line feed, sent with one, comes back trimmed, and the bytes after it remain |
| LineReader.ReadLineWholeChunk | src/line_reader.rs:39-40 | a chunk that fits the free room is read whole |
| LineReader.BufferedLine | src/line_reader.rs:31-33 | a line already buffered is returned without reading from the source |
| LineReader.FirstLineOfChunk | src/line_reader.rs:61-67 | a fresh reader fed one chunk returns its first line and keeps the rest of the chunk buffered |
| LineReader.TwoLinesOneRead | src/line_reader.rs:70-81 | two lines arriving in one read come back one per call, the second from the buffer alone |
| LineReader.LineAcrossReads | src/line_reader.rs:84-95 | a line whose bytes straddle two reads is returned whole once its line feed arrives |
| Scenarios.ReadSingleLine | src/line_reader.rs:61-67 | b"Hello\n" yields "Hello" |
| Scenarios.ReadMultipleLines | src/line_reader.rs:70-81 | b"Hello\nWorld\n" yields "Hello", then "World" from an empty slice |
| Scenarios.ReadSplitLines | src/line_reader.rs:84-95 | b"Hello\nWor" then b"ld\n" yields "Hello", then "World" |
| Scenarios.ReadBufferExceeded | src/line_reader.rs:98-104 | 512 zero bytes fail with "buffer exceeded" |
| Utf8.Encode | src/lib.rs:114 | every character takes one to four bytes; the round trips are `DecodeEncode` and `EncodeDecode` |
| Utf8.Decode | src/line_reader.rs:44 | accepted bytes are one to four per character of the result; the round trips are `DecodeEncode` and `EncodeDecode` |
| Utf8.Trim | src/line_reader.rs:44 | the result is no longer than the input and neither starts nor ends with whitespace; `TrimCharacterized` says what was cut off |
| Utf8.DecodeEncode | src/line_reader.rs:44 | `from_utf8` accepts the UTF-8 form of any text and gives the text back |
| Utf8.EncodeDecode | src/line_reader.rs:44 | bytes that `from_utf8` accepts are exactly the UTF-8 form of what it returns |
| Utf8.EncodeAppend | src/lib.rs:205-206 | the bytes of a concatenation are the concatenated bytes |
| Utf8.EncodeNoLineFeed | src/line_reader.rs:43-44 | text without '\n' has no 0x0a byte, so the line feed a reader finds is the frame's own |
| Utf8.TrimCharacterized | src/line_reader.rs:44 | `trim` returns a contiguous piece of the line with only whitespace before and after it, and the piece neither starts nor ends with whitespace |
| Utf8.TrimUnchanged | src/line_reader.rs:44 | a line with no whitespace at either end is unchanged by `trim` |
| Utf8.TrimIdempotent | src/line_reader.rs:44 | trimming twice is trimming once |
| Utf8.TrimCarriageReturn | src/line_reader.rs:44 | `trim` removes the carriage return of a CR LF line |
| Text.Split | src/lib.rs:153 | `split(' ')` yields at least one piece, none holding a space, and the pieces joined by spaces give the line back |
| Text.SplitJoin | src/lib.rs:153 | splitting the space-join of space-free pieces gives the pieces back |
| Text.ParseU32 | src/lib.rs:156 | the empty string fails as empty; otherwise parsing succeeds exactly when an optional '+' is followed by digits whose value is below 2^32, and returns that value; the error kind follows the leading digit run: overflow when its value reaches 2^32, otherwise invalid digit when a non-digit follows it or nothing but a sign was given |
| Text.AccumulateError | src/lib.rs:156 | digit accumulation reports overflow when the leading run of digits overflows, and an invalid digit when that run fits but a non-digit follows |
| Text.ParseDecimal | src/lib.rs:187 | parsing the `{}` formatting of any `u32` gives it back |
| Text.Decimal | src/lib.rs:187 | the `{}` form of a number: non-empty decimal digits whose value is the number, with no leading zero except for "0" itself |
| Text.DecimalU32 | src/lib.rs:187 | a formatted `u32` has at most ten digits |
| Response.Classify | src/lib.rs:107-110 | computes the classification only; its contract is stated by `ClassifyPositive` and `StatusIndicators` |
| Response.ClassifyPositive | src/lib.rs:107-110 | a status line is accepted exactly when it starts with "+OK" and is then returned unchanged; otherwise the error carries the whole line |
| Response.StatusIndicators | src/lib.rs:107-110 | "+OK" lines are accepted whatever follows; "-ERR" lines are refused with the indicator kept |
| Response.ReadStatusLine | src/lib.rs:104-111 | reads exactly one line, classifies it, and writes nothing |
| Response.ReadStatusCrLf | src/lib.rs:104-111 | a status line sent with CR LF is classified without its CR, and exactly the bytes after it remain |
| Response.Unstuff | src/lib.rs:127-128 | a line starting with '.' loses exactly that first character, and any other line is returned unchanged |
| Response.DotBody | src/lib.rs:123-130 | the body is present exactly when some line is "."; it has one entry per line before the first ".", each with one leading dot removed |
| Response.UnstuffStuffLine | src/lib.rs:127 | removing the stuffed dot restores the line, and no stuffed line equals the terminator |
| Response.DotBodyStuff | src/lib.rs:123-130 | the dot rule undoes dot-stuffing, whatever follows the terminator |
| Response.TrimmedIndent | src/line_reader.rs:44 | an indented body line, such as a folded header continuation, is read back without its indentation or its CR |
| Response.TrimmedTerminator | src/lib.rs:124-126 | a "." line with whitespace around it also ends the body, because lines are trimmed before the comparison |
| Response.ReadBody | src/lib.rs:122-132 | reading the body writes nothing, and fails only with a line reader or transport error |
| Response.ReadBodyFramed | src/lib.rs:122-132 | reading framed lines up to the first line that trims to "." yields the unstuffed lines before it and leaves exactly the bytes after it |
| Response.ReadBodyStuffed | src/lib.rs:122-132 | a dot-stuffed body sent with CR LF comes back line for line, with exactly the bytes after its terminator left |
| Response.Send | src/lib.rs:114 | the whole command is appended to what was written, as UTF-8, and nothing is read |
| Response.InvokeSingleLine | src/lib.rs:113-116 | the command is written whole, then one status line is read; a success is a line starting with "+OK", and a failure is a refusal carrying a line that does not, or an error of the line reader or the transport |
| Response.InvokeMultiLine | src/lib.rs:118-133 | the command is written whole; a status line that is not positive ends the call with its error before any body line is read; a positive one is followed by the body loop; the only errors are a refusal, or one of the line reader or the transport |
| Response.MultiLineAccepted | src/lib.rs:119-120 | after the command and a positive status line, the body is read from exactly the bytes after that status line |
| Response.InvokeMultiLineStuffed | src/lib.rs:118-133 | a positive status line and a stuffed body yield the body, with nothing after the terminator consumed |
| Exchanges.MultiLineRefused | src/lib.rs:120 | a refused multi-line command fails with the status line and reads nothing after it |
| Exchanges.SingleLineStep | src/lib.rs:113-116 | a single-line command answered with one CR LF line yields that line's classification and consumes exactly that line |
| Exchanges.SingleLineCrLf | src/lib.rs:113-116 | the reply to a single-line command is parsed only when it is positive; otherwise it fails with the whole line |
| Session.CommandTokens | src/lib.rs:145-146 | a command is one CR LF terminated line, and its space-separated tokens are the verb and its arguments |
| Session.CommandForms | src/lib.rs:235 | the `format!` strings are the verb with each argument after one space, and CR LF |
| Session.ParseStat | src/lib.rs:153-160 | succeeds exactly when the second and third tokens parse as `u32` and returns them; fewer than two tokens fail with "missing message count"; an unparsable count fails with its number error; exactly two tokens with a good count fail with "missing maildrop size"; a good count and an unparsable size fail with the size's number error |
| Session.ParseListEntry | src/lib.rs:168-175 | succeeds exactly when the first two tokens parse as `u32`; an unparsable id fails with its number error; a line with one good token fails with "missing size"; a good id and an unparsable size fail with the size's number error; "missing id" never happens |
| Session.ParseUidEntry | src/lib.rs:251-255 | succeeds exactly when the first token parses and a second exists, returning the second as the unique id; "missing id" never happens |
| Session.ParseSizeReply | src/lib.rs:188-193 | the size is the third token and must parse; fewer tokens fail with "missing size" |
| Session.ParseUidReply | src/lib.rs:268-273 | the unique id is the third token; fewer tokens fail with "missing unique id" |
| Session.ParseEach | src/lib.rs:167-178 | one record per line in order, or the error of the first line that does not parse |
| Session.Concatenate | src/lib.rs:236-242 | the text `top` builds is empty exactly when the body is, ends with '\n' otherwise, and holds one '\n' per body line when the lines hold none |
| Session.WriteLines | src/lib.rs:204-207 | the bytes `retrieve` writes are empty exactly when the body is, end with 0x0a otherwise, and hold one 0x0a per body line when the lines hold no '\n' |
| Session.WriteLinesEncode | src/lib.rs:204-207 | the bytes `retrieve` writes are the UTF-8 form of the text `top` returns for the same body |
| Session.ConcatenateSplit | src/lib.rs:237-240 | the text `top` returns splits at '\n' back into the body lines, plus one empty piece |
| Session.Connect | src/lib.rs:95-101 | a fresh line reader reads the greeting with nothing written; the session opens exactly when the greeting is positive, and a refusal or read error is returned as it is |
| Session.Login | src/lib.rs:144-148 | USER is sent and its reply read; PASS is sent only when USER was accepted, and login succeeds exactly when PASS is accepted too; the bytes written are the two commands in order |
| Session.Stat | src/lib.rs:151-161 | its own contract covers only the bytes sent ("STAT\r\n") and that success needs a positive status line; `StatExchange` carries the result |
| Session.List | src/lib.rs:164-179 | its own contract covers only the bytes sent ("LIST\r\n") and that success needs a successful multi-line read; `ListExchange` carries the result |
| Session.GetMessageSize | src/lib.rs:186-194 | its own contract covers only the bytes sent ("LIST n\r\n") and that success needs a positive status line; `GetMessageSizeExchange` carries the result |
| Session.Retrieve | src/lib.rs:202-210 | its own contract covers only the bytes sent ("RETR n\r\n") and that it succeeds exactly when the multi-line read does; `RetrieveExchange` and `RetrieveFramed` carry the result |
| Session.Delete | src/lib.rs:217-220 | its own contract covers only the bytes sent ("DELE n\r\n") and that it succeeds exactly when the status line is positive; `DeleteExchange` carries the result |
| Session.Reset | src/lib.rs:223-226 | its own contract covers only the bytes sent ("RSET\r\n") and that it succeeds exactly when the status line is positive; `ResetExchange` carries the result |
| Session.Top | src/lib.rs:234-243 | its own contract covers only the bytes sent ("TOP n m\r\n") and that it succeeds exactly when the multi-line read does; `TopExchange` and `TopFramed` carry the result |
| Session.ListUniqueIds | src/lib.rs:246-259 | its own contract covers only the bytes sent ("UIDL\r\n") and that success needs a successful multi-line read; `ListUniqueIdsExchange` carries the result |
| Session.GetUniqueId | src/lib.rs:266-274 | its own contract covers only the bytes sent ("UIDL n\r\n") and that success needs a positive status line; `GetUniqueIdExchange` carries the result |
| Exchanges.ParseStatLine | src/lib.rs:151-160 | a "+OK count size" line parses back to the statistics it was built from |
| Exchanges.ParseSizeLine | src/lib.rs:186-194 | a "+OK id size" line parses back to the size |
| Exchanges.ParseUidLine | src/lib.rs:266-274 | a "+OK id uid" line parses back to the unique id |
| Exchanges.ParseListLine | src/lib.rs:168-175 | an "id size" line parses back to its record |
| Exchanges.ParseUidEntryLine | src/lib.rs:251-255 | an "id uid" line parses back to its record |
| Exchanges.ParseListLines | src/lib.rs:164-179 | a LIST body parses back to the records it lists, in order |
| Exchanges.ParseUidEntryLines | src/lib.rs:246-259 | a UIDL body parses back to the records it lists, in order |
| Exchanges.ConnectGreeting | src/lib.rs:95-101 | the session opens exactly when the greeting is positive, leaving the rest of the stream for the first command |
| Exchanges.LoginAccepted | src/lib.rs:144-148 | with two positive replies, USER then PASS is sent and login succeeds |
| Exchanges.LoginUserRefused | src/lib.rs:144-148 | a refused USER fails with its line, and PASS is never sent |
| Exchanges.StatExchange | src/lib.rs:151-161 | `stat` against a "+OK count size" reply returns those statistics and consumes exactly that line |
| Exchanges.StatRefused | src/lib.rs:151-152 | `stat` against "-ERR…" fails with the whole line |
| Exchanges.ListExchange | src/lib.rs:164-179 | `list` returns exactly the records of a stuffed LIST body |
| Exchanges.GetMessageSizeExchange | src/lib.rs:186-194 | `get_message_size` returns the size of a "+OK id size" reply |
| Exchanges.RetrieveExchange | src/lib.rs:202-210 | `retrieve` writes each body line followed by '\n', as UTF-8; the bytes decode back to that text |
| Exchanges.MultiLineFramed | src/lib.rs:118-133 | after a positive status line, any lines the transport can carry, up to the first that trims to ".", are parsed as the dot rule applied to the trimmed lines, with exactly the bytes after them left |
| Exchanges.RetrieveFramed | src/lib.rs:202-210 | over any such reply, `retrieve` writes the unstuffed trimmed lines before the first line that trims to ".", each with '\n': whitespace at either end of a line is lost |
| Exchanges.TopFramed | src/lib.rs:234-243 | over any such reply, `top` returns the unstuffed trimmed lines before the first line that trims to ".", each followed by '\n' |
| Exchanges.DeleteExchange | src/lib.rs:217-220 | `delete` succeeds exactly when the reply is positive; otherwise it fails with the whole line |
| Exchanges.ResetExchange | src/lib.rs:223-226 | `reset` succeeds exactly when the reply is positive; otherwise it fails with the whole line |
| Exchanges.TopExchange | src/lib.rs:234-243 | `top` returns the body lines, each followed by '\n', and that text splits back into them |
| Exchanges.ListUniqueIdsExchange | src/lib.rs:246-259 | `list_unique_ids` returns exactly the records of a stuffed UIDL body |
| Exchanges.GetUniqueIdExchange | src/lib.rs:266-274 | `get_unique_id` returns the unique id of a "+OK id uid" reply |
| Scenarios.StuffedDot | src/lib.rs:126-127 | "..x" becomes ".x"; the terminator ends the body and the line after it is not part of it |
| Scenarios.SingleDot | src/lib.rs:127 | ".x" becomes "x": a single leading dot is removed |
| Scenarios.StatExample | src/lib.rs:153-160 | "+OK 2 320" parses as 2 messages and 320 octets |
| Scenarios.SizeExample | src/lib.rs:188-193 | "+OK 2 200" parses as 200 octets |
| Scenarios.BadDigitExample | src/lib.rs:156 | "1x" fails with an invalid digit |
| Scenarios.MinusExample | src/lib.rs:156 | "-1" fails with an invalid digit, since an unsigned parse takes no minus sign |
| Scenarios.OverflowFirst | src/lib.rs:156 | any text opening with eleven digits, the first a nine, overflows whatever follows, since the overflow is found before a later bad character |
| Scenarios.OverflowFirstExample | src/lib.rs:156 | "99999999999x" fails with overflow, which is found before the trailing non-digit |
| Scenarios.RefusalExample | src/lib.rs:107-110 | "-ERR no such message" is refused with the whole line |
| Scenarios.MissingSizeExample | src/lib.rs:170 | a LIST line "7" fails with "missing size" |

## Left out

- TLS, certificate loading, name resolution and the TCP connection
  (src/lib.rs:53-60 and 84-93). They are foreign libraries and I/O.
  `Connect` starts from a transport that is already up.
- `Drop` and its QUIT command (src/lib.rs:277-282). Its result is
  discarded, and the model has no object lifetime.
- Partial and failed writes. `write` may write fewer bytes than asked, or
  fail. The model appends every command and every `retrieve` line whole.
  In `retrieve`, the bytes handed to the writer are returned as the result.
- Blocking and spinning. On an open but quiet connection the Rust code's
  `read` blocks. At end of stream `read` returns `Ok(0)` and `read_line`
  loops forever. The model returns `Stalled` for both, so a read always
  ends.
- The stale bytes that `copy_within` leaves past the cursor. They are kept
  but never read, and no property depends on them.
- The demo program examples/list-mails.rs, which only prints.
- The end-to-end exchange lemmas state each reply as its server would
  frame it, with CR LF, no line feed inside a line, and lines short enough
  for the buffer. What happens outside those shapes follows from the
  `LineReader` and `Response` contracts, not from a lemma per command.
- RetrieveExchange, TopExchange, ReadBodyStuffed, InvokeMultiLineStuffed,
  ReadStatusCrLf, SingleLineCrLf, SingleLineStep, StatRefused,
  DeleteExchange, ResetExchange, MultiLineRefused and ConnectGreeting: the
  lines they take are restricted to bare lines, with no whitespace at either
  end. For a status line with outer whitespace, the result follows from
  `ReadLineSuccess` (the line is trimmed) and `ClassifyPositive`. That hides behaviour of the code. Every body line goes through
  `trim` (src/line_reader.rs:44), so `retrieve` and `top` drop leading and
  trailing whitespace, for example the indent of a folded header line.
  Also, a line such as " ." is not stuffed by a server but still ends the
  body (src/lib.rs:126), leaving the rest of the message unread. For any
  reply, `RetrieveFramed`, `TopFramed` and `ReadBodyFramed` state the result
  as the dot rule applied to the trimmed lines. `TrimmedIndent` and
  `TrimmedTerminator` state the two effects.

=== FILE: base.dfy ===
/** Shared vocabulary of the POP3 client model: bytes, unsigned 32-bit
    integers, the Option/Result wrappers and the closed set of errors the
    client can surface. */
module Base {

  /** One octet on the wire. */
  type byte = x: int | 0 <= x < 256

  /** Rust's `u32`. */
  type u32 = x: int | 0 <= x < 0x1_0000_0000

  const U32Limit: int := 0x1_0000_0000

  datatype Option<+T> = None | Some(value: T)

  datatype Result<+T, +E> = Success(value: T) | Failure(error: E)

  /** The kinds of `ParseIntError` that `str::parse::<u32>` can report. */
  datatype IntErrorKind = Empty | InvalidDigit | PosOverflow

  /** Every failure the client reports to its caller. The Rust code boxes
      them all into `Box<dyn Error>`; here they form one closed enumeration. */
  datatype Error =
    | Io(reason: string)          // the transport's `read` failed
    | Stalled                     // the scripted source has nothing more to deliver
    | BufferExceeded              // 512 buffered bytes and still no line feed
    | InvalidUtf8                 // `from_utf8` rejected the line
    | NoLineAvailable             // the final fall-through of `read_line`
    | Negative(line: string)      // a status line not starting with "+OK"
    | Missing(field: string)      // `ok_or("missing <field>")`
    | BadNumber(kind: IntErrorKind)

  /** Position of the first occurrence of `x` in `s`. */
  function IndexOf<T(==)>(s: seq<T>, x: T): (r: Option<nat>)
    ensures r.None? <==> x !in s
    ensures r.Some? ==> r.value < |s| && s[r.value] == x && x !in s[..r.value]
    ensures r.Some? ==> forall j :: 0 <= j < r.value ==> s[j] != x
  {
    if s == [] then None
    else if s[0] == x then Some(0)
    else match IndexOf(s[1..], x)
      case None => None
      case Some(i) =>
        assert s[..i + 1] == [s[0]] + s[1..][..i];
        Some(i + 1)
  }

  /** The first occurrence is unique: any position holding `x` with no
      earlier `x` is the one `IndexOf` reports. */
  lemma IndexOfUnique<T>(s: seq<T>, x: T, k: nat)
    requires k < |s| && s[k] == x
    requires forall j :: 0 <= j < k ==> s[j] != x
    ensures IndexOf(s, x) == Some(k)
  {
  }

  /** Appending never moves an occurrence that is already present. */
  lemma IndexOfPrefix<T>(a: seq<T>, b: seq<T>, x: T)
    requires x in a
    ensures IndexOf(a + b, x) == IndexOf(a, x)
  {
    var k := IndexOf(a, x).value;
    IndexOfUnique(a + b, x, k);
  }

  lemma PrefixOfAppend<T>(a: seq<T>, b: seq<T>, k: nat)
    requires k <= |a|
    ensures (a + b)[..k] == a[..k]
  {
  }

  lemma SuffixOfAppend<T>(a: seq<T>, b: seq<T>, k: nat)
    requires k <= |a|
    ensures (a + b)[k..] == a[k..] + b
  {
  }

  lemma SliceOfSuffix<T>(s: seq<T>, i: nat, n: nat)
    requires i + n <= |s|
    ensures s[i..][..n] == s[i..i + n] && s[i..][n..] == s[i + n..]
  {
  }

  lemma AppendNil<T>(a: seq<T>)
    ensures a + [] == a
  {
  }

  lemma AppendAssoc<T>(a: seq<T>, b: seq<T>, c: seq<T>)
    ensures a + b + c == a + (b + c)
  {
  }
}

=== FILE: exchanges.dfy ===
/** Whole exchanges with a server that follows RFC 1939: the replies it
    sends for STAT, LIST, UIDL, TOP, RETR and USER/PASS, and what the client
    makes of them. Each lemma pairs a command of the client with the server
    side of the same exchange. */
module Exchanges {
  import opened Base
  import opened Utf8
  import opened Text
  import opened LineReader
  import opened Response
  import opened Session

  // ---------------------------------------------------------------------
  // Server-side reply formats (sections 5 and 7 of RFC 1939)

  /** "+OK nn mm": the positive STAT reply. */
  function StatLine(st: MailboxStat): string
  {
    Join([Positive, Decimal(st.messageCount), Decimal(st.maildropSize)], ' ')
  }

  /** "+OK n s": the positive reply to LIST with an argument. */
  function SizeLine(id: u32, size: u32): string
  {
    Join([Positive, Decimal(id), Decimal(size)], ' ')
  }

  /** "+OK n uid": the positive reply to UIDL with an argument. */
  function UidLine(id: u32, uid: string): string
  {
    Join([Positive, Decimal(id), uid], ' ')
  }

  /** "n s": one line of a LIST body. */
  function ListLine(info: MessageInfo): string
  {
    Join([Decimal(info.messageId), Decimal(info.messageSize)], ' ')
  }

  /** "n uid": one line of a UIDL body. */
  function UidEntryLine(info: MessageUidInfo): string
  {
    Join([Decimal(info.messageId), info.uniqueId], ' ')
  }

  function ListLines(infos: seq<MessageInfo>): seq<string>
  {
    seq(|infos|, i requires 0 <= i < |infos| => ListLine(infos[i]))
  }

  function UidEntryLines(infos: seq<MessageUidInfo>): seq<string>
  {
    seq(|infos|, i requires 0 <= i < |infos| => UidEntryLine(infos[i]))
  }

  /** A unique-id as section 7 of RFC 1939 defines it: 1 to 70 characters
      in the range 0x21 to 0x7E. */
  predicate UniqueId(uid: string)
  {
    1 <= |uid| <= 70 && forall i :: 0 <= i < |uid| ==> '!' <= uid[i] <= '~'
  }

  predicate UniqueIds(infos: seq<MessageUidInfo>)
  {
    forall i :: 0 <= i < |infos| ==> UniqueId(infos[i].uniqueId)
  }

  // ---------------------------------------------------------------------
  // Shape of the reply lines

  /** Three space-separated tokens, the middle one a decimal. */
  lemma Join3(a: string, b: string, d: string)
    ensures Join([a, b, d], ' ') == a + " " + b + " " + d
  {
    assert [a, b, d][1..] == [b, d];
    Join2(b, d);
  }

  lemma Join2(a: string, b: string)
    ensures Join([a, b], ' ') == a + " " + b
  {
    assert [a, b][1..] == [b];
  }

  /** A line made of a bare non-empty head and tail joined by a space is a
      line the server can send. */
  lemma LineFacts(head: string, tail: string)
    requires head != [] && tail != []
    requires !IsWhitespace(head[0]) && !IsWhitespace(tail[|tail| - 1])
    requires '\n' !in head && '\n' !in tail
    ensures var line := head + " " + tail;
      && '\n' !in line && Bare(line)
  {
    var line := head + " " + tail;
    assert line[0] == head[0];
    assert line[|line| - 1] == tail[|tail| - 1];
  }

  lemma DigitNotSpace(s: string)
    requires |s| > 0 && AllDigits(s)
    ensures !IsWhitespace(s[0]) && !IsWhitespace(s[|s| - 1])
  {
    assert IsDigit(s[0]) && IsDigit(s[|s| - 1]);
  }

  lemma UidFacts(uid: string)
    requires UniqueId(uid)
    ensures ' ' !in uid && '\n' !in uid
    ensures !IsWhitespace(uid[0]) && !IsWhitespace(uid[|uid| - 1])
  {
    assert forall i :: 0 <= i < |uid| ==> uid[i] != ' ' && uid[i] != '\n';
  }

  // ---------------------------------------------------------------------
  // Parsers against the formats

  /** The client reads back every STAT reply. */
  lemma ParseStatLine(st: MailboxStat)
    ensures ParseStat(StatLine(st)) == Success(st)
  {
    SplitJoin([Positive, Decimal(st.messageCount), Decimal(st.maildropSize)], ' ');
    ParseDecimal(st.messageCount);
    ParseDecimal(st.maildropSize);
  }

  /** The client reads back the size of every LIST reply. */
  lemma ParseSizeLine(id: u32, size: u32)
    ensures ParseSizeReply(SizeLine(id, size)) == Success(size)
  {
    SplitJoin([Positive, Decimal(id), Decimal(size)], ' ');
    ParseDecimal(size);
  }

  /** The client reads back the unique-id of every UIDL reply. */
  lemma ParseUidLine(id: u32, uid: string)
    requires UniqueId(uid)
    ensures ParseUidReply(UidLine(id, uid)) == Success(uid)
  {
    UidFacts(uid);
    SplitJoin([Positive, Decimal(id), uid], ' ');
  }

  lemma ParseListLine(info: MessageInfo)
    ensures ParseListEntry(ListLine(info)) == Success(info)
  {
    SplitJoin([Decimal(info.messageId), Decimal(info.messageSize)], ' ');
    ParseDecimal(info.messageId);
    ParseDecimal(info.messageSize);
  }

  lemma ParseUidEntryLine(info: MessageUidInfo)
    requires UniqueId(info.uniqueId)
    ensures ParseUidEntry(UidEntryLine(info)) == Success(info)
  {
    UidFacts(info.uniqueId);
    SplitJoin([Decimal(info.messageId), info.uniqueId], ' ');
    ParseDecimal(info.messageId);
  }

  /** A LIST body in the server's format parses to the records it lists,
      one per line and in order. */
  lemma ParseListLines(infos: seq<MessageInfo>)
    ensures ListAll(ListLines(infos)) == Success(infos)
  {
    var lines := ListLines(infos);
    forall i | 0 <= i < |lines| ensures ParseListEntry(lines[i]) == Success(infos[i]) {
      ParseListLine(infos[i]);
    }
    var r := ListAll(lines);
    assert r.Success?;
    assert r.value == infos;
  }

  lemma ParseUidEntryLines(infos: seq<MessageUidInfo>)
    requires UniqueIds(infos)
    ensures UidAll(UidEntryLines(infos)) == Success(infos)
  {
    var lines := UidEntryLines(infos);
    forall i | 0 <= i < |lines| ensures ParseUidEntry(lines[i]) == Success(infos[i]) {
      ParseUidEntryLine(infos[i]);
    }
    var r := UidAll(lines);
    assert r.Success?;
    assert r.value == infos;
  }

  // ---------------------------------------------------------------------
  // Lines the transport carries

  lemma StatLineSendable(st: MailboxStat)
    ensures var line := StatLine(st);
      '\n' !in line && Bare(line) && |Encode(line)| + 1 < BufferSize && StartsWith(line, Positive)
  {
    var a := Decimal(st.messageCount);
    var b := Decimal(st.maildropSize);
    Join3(Positive, a, b);
    DecimalU32(st.messageCount);
    DecimalU32(st.maildropSize);
    DigitNotSpace(b);
    LineFacts(Positive + " " + a, b);
    assert (Positive + " " + a + " " + b)[..3] == Positive;
  }

  lemma SizeLineSendable(id: u32, size: u32)
    ensures var line := SizeLine(id, size);
      '\n' !in line && Bare(line) && |Encode(line)| + 1 < BufferSize && StartsWith(line, Positive)
  {
    StatLineSendable(MailboxStat(id, size));
  }

  lemma UidLineSendable(id: u32, uid: string)
    requires UniqueId(uid)
    ensures var line := UidLine(id, uid);
      '\n' !in line && Bare(line) && |Encode(line)| + 1 < BufferSize && StartsWith(line, Positive)
  {
    var a := Decimal(id);
    Join3(Positive, a, uid);
    DecimalU32(id);
    UidFacts(uid);
    LineFacts(Positive + " " + a, uid);
    assert (Positive + " " + a + " " + uid)[..3] == Positive;
  }

  lemma ListLinesSendable(infos: seq<MessageInfo>)
    ensures Sendable(ListLines(infos))
  {
    var lines := ListLines(infos);
    forall i | 0 <= i < |lines|
      ensures '\n' !in lines[i] && Bare(lines[i]) && |Encode(lines[i])| + 2 < BufferSize
    {
      var a := Decimal(infos[i].messageId);
      var b := Decimal(infos[i].messageSize);
      Join2(a, b);
      DecimalU32(infos[i].messageId);
      DecimalU32(infos[i].messageSize);
      DigitNotSpace(a);
      DigitNotSpace(b);
      LineFacts(a, b);
    }
  }

  lemma UidEntryLinesSendable(infos: seq<MessageUidInfo>)
    requires UniqueIds(infos)
    ensures Sendable(UidEntryLines(infos))
  {
    var lines := UidEntryLines(infos);
    forall i | 0 <= i < |lines|
      ensures '\n' !in lines[i] && Bare(lines[i]) && |Encode(lines[i])| + 2 < BufferSize
    {
      var a := Decimal(infos[i].messageId);
      var u := infos[i].uniqueId;
      Join2(a, u);
      DecimalU32(infos[i].messageId);
      DigitNotSpace(a);
      UidFacts(u);
      LineFacts(a, u);
    }
  }

  // ---------------------------------------------------------------------
  // Whole exchanges

  /** A single-line command answered with one CR LF line: the line is
      classified and, when positive, parsed. */
  lemma SingleLineCrLf<T>(c: Conn, command: string, parse: string -> Result<T, Error>, line: string, tail: seq<byte>)
    requires c.Valid() && NoFaults(c.incoming)
    requires '\n' !in line && Bare(line) && |Encode(line)| + 1 < BufferSize
    requires c.Unread() == CrLf(line) + tail
    ensures SingleLine(c, command, parse).result == if StartsWith(line, Positive) then parse(line) else Failure(Negative(line))
    ensures SingleLine(c, command, parse).conn.Unread() == tail
    ensures NoFaults(SingleLine(c, command, parse).conn.incoming)
  {
    ReadStatusCrLf(Send(c, command), line, tail);
  }

  /** A multi-line command answered with a positive status line and a
      stuffed body: the body is parsed. */
  lemma MultiLineStuffed<T>(c: Conn, command: string, parse: seq<string> -> Result<T, Error>, status: string, body: seq<string>, tail: seq<byte>)
    requires c.Valid() && NoFaults(c.incoming) && Sendable(body)
    requires '\n' !in status && Bare(status) && |Encode(status)| + 1 < BufferSize && StartsWith(status, Positive)
    requires c.Unread() == CrLf(status) + FramedAll(CrLines(Stuff(body))) + tail
    ensures MultiLine(c, command, parse).result == parse(body)
    ensures MultiLine(c, command, parse).conn.Unread() == tail
  {
    InvokeMultiLineStuffed(c, command, status, body, tail);
  }

  /** A multi-line command answered with a positive status line and any
      lines the transport can carry, the last of them the first that trims
      to ".": the dot rule applied to the trimmed lines is parsed. */
  lemma MultiLineFramed<T>(c: Conn, command: string, parse: seq<string> -> Result<T, Error>, status: string, wire: seq<string>, tail: seq<byte>)
    requires c.Valid() && NoFaults(c.incoming) && Carriable(wire)
    requires '\n' !in status && Bare(status) && |Encode(status)| + 1 < BufferSize && StartsWith(status, Positive)
    requires wire != [] && IndexOf(TrimAll(wire), Terminator) == Some(|wire| - 1)
    requires c.Unread() == CrLf(status) + FramedAll(wire) + tail
    ensures DotBody(TrimAll(wire)).Some?
    ensures MultiLine(c, command, parse).result == parse(DotBody(TrimAll(wire)).value)
    ensures MultiLine(c, command, parse).conn.Unread() == tail
  {
    AppendAssoc(CrLf(status), FramedAll(wire), tail);
    MultiLineAccepted(c, command, status, FramedAll(wire) + tail);
    ReadBodyFramed(ReadStatusLine(Send(c, command)).conn, wire, tail);
  }

  /** `stat` against a server that answers "+OK nn mm" with CR LF. */
  lemma StatExchange(c: Conn, st: MailboxStat, tail: seq<byte>)
    requires c.Valid() && NoFaults(c.incoming)
    requires c.Unread() == CrLf(StatLine(st)) + tail
    ensures Stat(c).result == Success(st)
    ensures Stat(c).conn.Unread() == tail
  {
    StatLineSendable(st);
    SingleLineCrLf(c, "STAT\r\n", ParseStat, StatLine(st), tail);
    ParseStatLine(st);
  }

  /** Any command answered with "-ERR ..." fails with the whole line; STAT
      shown here. */
  lemma StatRefused(c: Conn, text: string, tail: seq<byte>)
    requires c.Valid() && NoFaults(c.incoming)
    requires var line := "-ERR" + text; '\n' !in line && Bare(line) && |Encode(line)| + 1 < BufferSize
    requires c.Unread() == CrLf("-ERR" + text) + tail
    ensures Stat(c).result == Failure(Negative("-ERR" + text))
    ensures Stat(c).conn.Unread() == tail
  {
    StatusIndicators(text);
    SingleLineCrLf(c, "STAT\r\n", ParseStat, "-ERR" + text, tail);
  }

  /** `get_message_size` against "+OK n s". */
  lemma GetMessageSizeExchange(c: Conn, id: u32, size: u32, tail: seq<byte>)
    requires c.Valid() && NoFaults(c.incoming)
    requires c.Unread() == CrLf(SizeLine(id, size)) + tail
    ensures GetMessageSize(c, id).result == Success(size)
    ensures GetMessageSize(c, id).conn.Unread() == tail
  {
    SizeLineSendable(id, size);
    SingleLineCrLf(c, "LIST " + Decimal(id) + "\r\n", ParseSizeReply, SizeLine(id, size), tail);
    ParseSizeLine(id, size);
  }

  /** `get_unique_id` against "+OK n uid". */
  lemma GetUniqueIdExchange(c: Conn, id: u32, uid: string, tail: seq<byte>)
    requires c.Valid() && NoFaults(c.incoming) && UniqueId(uid)
    requires c.Unread() == CrLf(UidLine(id, uid)) + tail
    ensures GetUniqueId(c, id).result == Success(uid)
    ensures GetUniqueId(c, id).conn.Unread() == tail
  {
    UidLineSendable(id, uid);
    SingleLineCrLf(c, "UIDL " + Decimal(id) + "\r\n", ParseUidReply, UidLine(id, uid), tail);
    ParseUidLine(id, uid);
  }

  /** `list` against a positive status line and a LIST body. */
  lemma ListExchange(c: Conn, status: string, infos: seq<MessageInfo>, tail: seq<byte>)
    requires c.Valid() && NoFaults(c.incoming)
    requires '\n' !in status && Bare(status) && |Encode(status)| + 1 < BufferSize && StartsWith(status, Positive)
    requires c.Unread() == CrLf(status) + FramedAll(CrLines(Stuff(ListLines(infos)))) + tail
    ensures List(c).result == Success(infos)
    ensures List(c).conn.Unread() == tail
  {
    ListLinesSendable(infos);
    MultiLineStuffed(c, "LIST\r\n", ListAll, status, ListLines(infos), tail);
    ParseListLines(infos);
  }

  /** `list_unique_ids` against a positive status line and a UIDL body. */
  lemma ListUniqueIdsExchange(c: Conn, status: string, infos: seq<MessageUidInfo>, tail: seq<byte>)
    requires c.Valid() && NoFaults(c.incoming) && UniqueIds(infos)
    requires '\n' !in status && Bare(status) && |Encode(status)| + 1 < BufferSize && StartsWith(status, Positive)
    requires c.Unread() == CrLf(status) + FramedAll(CrLines(Stuff(UidEntryLines(infos)))) + tail
    ensures ListUniqueIds(c).result == Success(infos)
    ensures ListUniqueIds(c).conn.Unread() == tail
  {
    UidEntryLinesSendable(infos);
    MultiLineStuffed(c, "UIDL\r\n", UidAll, status, UidEntryLines(infos), tail);
    ParseUidEntryLines(infos);
  }

  /** `top` returns the body, each line followed by '\n'; the text splits
      back into the lines the server sent. */
  lemma TopExchange(c: Conn, id: u32, n: u32, status: string, body: seq<string>, tail: seq<byte>)
    requires c.Valid() && NoFaults(c.incoming) && Sendable(body)
    requires '\n' !in status && Bare(status) && |Encode(status)| + 1 < BufferSize && StartsWith(status, Positive)
    requires c.Unread() == CrLf(status) + FramedAll(CrLines(Stuff(body))) + tail
    ensures Top(c, id, n).result == Success(Concatenate(body))
    ensures Split(Top(c, id, n).result.value, '\n') == body + [""]
    ensures Top(c, id, n).conn.Unread() == tail
  {
    MultiLineStuffed(c, "TOP " + Decimal(id) + " " + Decimal(n) + "\r\n", Message, status, body, tail);
    ConcatenateSplit(body);
  }

  /** `retrieve` writes the body, each line followed by a line feed: the
      bytes of exactly the text `top` would return for the same body. */
  lemma RetrieveExchange(c: Conn, id: u32, status: string, body: seq<string>, tail: seq<byte>)
    requires c.Valid() && NoFaults(c.incoming) && Sendable(body)
    requires '\n' !in status && Bare(status) && |Encode(status)| + 1 < BufferSize && StartsWith(status, Positive)
    requires c.Unread() == CrLf(status) + FramedAll(CrLines(Stuff(body))) + tail
    ensures Retrieve(c, id).result == Success(Encode(Concatenate(body)))
    ensures Decode(Retrieve(c, id).result.value) == Some(Concatenate(body))
    ensures Retrieve(c, id).conn.Unread() == tail
  {
    MultiLineStuffed(c, "RETR " + Decimal(id) + "\r\n", Written, status, body, tail);
    WriteLinesEncode(body);
    DecodeEncode(Concatenate(body));
  }

  /** `retrieve` over any reply: what it writes is the dot rule applied
      to the trimmed lines, so whitespace at either end of a body line is
      lost, and a line that trims to "." ends the body where it stands. */
  lemma RetrieveFramed(c: Conn, id: u32, status: string, wire: seq<string>, tail: seq<byte>)
    requires c.Valid() && NoFaults(c.incoming) && Carriable(wire)
    requires '\n' !in status && Bare(status) && |Encode(status)| + 1 < BufferSize && StartsWith(status, Positive)
    requires wire != [] && IndexOf(TrimAll(wire), Terminator) == Some(|wire| - 1)
    requires c.Unread() == CrLf(status) + FramedAll(wire) + tail
    ensures DotBody(TrimAll(wire)).Some?
    ensures Retrieve(c, id).result == Success(WriteLines(DotBody(TrimAll(wire)).value))
    ensures Retrieve(c, id).conn.Unread() == tail
  {
    MultiLineFramed(c, "RETR " + Decimal(id) + "\r\n", Written, status, wire, tail);
  }

  /** `top` over any reply: the text is the trimmed, unstuffed lines before
      the first line that trims to ".", each followed by '\n'. */
  lemma TopFramed(c: Conn, id: u32, n: u32, status: string, wire: seq<string>, tail: seq<byte>)
    requires c.Valid() && NoFaults(c.incoming) && Carriable(wire)
    requires '\n' !in status && Bare(status) && |Encode(status)| + 1 < BufferSize && StartsWith(status, Positive)
    requires wire != [] && IndexOf(TrimAll(wire), Terminator) == Some(|wire| - 1)
    requires c.Unread() == CrLf(status) + FramedAll(wire) + tail
    ensures DotBody(TrimAll(wire)).Some?
    ensures Top(c, id, n).result == Success(Concatenate(DotBody(TrimAll(wire)).value))
    ensures Top(c, id, n).conn.Unread() == tail
  {
    MultiLineFramed(c, "TOP " + Decimal(id) + " " + Decimal(n) + "\r\n", Message, status, wire, tail);
  }

  /** `delete`: succeeds exactly when the status line is positive; a
      refusal carries the whole line. */
  lemma DeleteExchange(c: Conn, id: u32, line: string, tail: seq<byte>)
    requires c.Valid() && NoFaults(c.incoming)
    requires '\n' !in line && Bare(line) && |Encode(line)| + 1 < BufferSize
    requires c.Unread() == CrLf(line) + tail
    ensures Delete(c, id).result.Success? <==> StartsWith(line, Positive)
    ensures Delete(c, id).result.Failure? ==> Delete(c, id).result.error == Negative(line)
    ensures Delete(c, id).conn.Unread() == tail
  {
    SingleLineCrLf(c, "DELE " + Decimal(id) + "\r\n", Accept, line, tail);
  }

  /** `reset`: succeeds exactly when the status line is positive; a
      refusal carries the whole line. */
  lemma ResetExchange(c: Conn, line: string, tail: seq<byte>)
    requires c.Valid() && NoFaults(c.incoming)
    requires '\n' !in line && Bare(line) && |Encode(line)| + 1 < BufferSize
    requires c.Unread() == CrLf(line) + tail
    ensures Reset(c).result.Success? <==> StartsWith(line, Positive)
    ensures Reset(c).result.Failure? ==> Reset(c).result.error == Negative(line)
    ensures Reset(c).conn.Unread() == tail
  {
    SingleLineCrLf(c, "RSET\r\n", Accept, line, tail);
  }

  /** A multi-line command refused by its status line fails with that line
      and reads nothing after it: whatever the server sent next is still
      unread. */
  lemma MultiLineRefused(c: Conn, command: string, line: string, tail: seq<byte>)
    requires c.Valid() && NoFaults(c.incoming)
    requires '\n' !in line && Bare(line) && |Encode(line)| + 1 < BufferSize && !StartsWith(line, Positive)
    requires c.Unread() == CrLf(line) + tail
    ensures InvokeMultiLine(c, command).result == Failure(Negative(line))
    ensures InvokeMultiLine(c, command).conn.Unread() == tail
  {
    ReadStatusCrLf(Send(c, command), line, tail);
  }

  /** `login` when the server refuses the user name: PASS is never sent. */
  lemma LoginUserRefused(c: Conn, user: string, password: string, text: string, tail: seq<byte>)
    requires c.Valid() && NoFaults(c.incoming)
    requires var line := "-ERR" + text; '\n' !in line && Bare(line) && |Encode(line)| + 1 < BufferSize
    requires c.Unread() == CrLf("-ERR" + text) + tail
    ensures Login(c, user, password).result == Failure(Negative("-ERR" + text))
    ensures Login(c, user, password).conn.outgoing == c.outgoing + Encode("USER " + user + "\r\n")
    ensures Login(c, user, password).conn.Unread() == tail
  {
    StatusIndicators(text);
    ReadStatusCrLf(Send(c, "USER " + user + "\r\n"), "-ERR" + text, tail);
  }

  /** `login` when both replies are positive: USER then PASS was sent. */
  lemma LoginAccepted(c: Conn, user: string, password: string, ok1: string, ok2: string, tail: seq<byte>)
    requires c.Valid() && NoFaults(c.incoming)
    requires '\n' !in ok1 && Bare(ok1) && |Encode(ok1)| + 1 < BufferSize && StartsWith(ok1, Positive)
    requires '\n' !in ok2 && Bare(ok2) && |Encode(ok2)| + 1 < BufferSize && StartsWith(ok2, Positive)
    requires c.Unread() == CrLf(ok1) + CrLf(ok2) + tail
    ensures Login(c, user, password).result == Success(())
    ensures Login(c, user, password).conn.outgoing == c.outgoing + Encode("USER " + user + "\r\n") + Encode("PASS " + password + "\r\n")
    ensures Login(c, user, password).conn.Unread() == tail
  {
    AppendAssoc(CrLf(ok1), CrLf(ok2), tail);
    var u := InvokeSingleLine(c, "USER " + user + "\r\n");
    SingleLineStep(c, "USER " + user + "\r\n", ok1, CrLf(ok2) + tail);
    SingleLineStep(u.conn, "PASS " + password + "\r\n", ok2, tail);
  }

  /** One single-line command answered with one CR LF line. */
  lemma SingleLineStep(c: Conn, command: string, line: string, tail: seq<byte>)
    requires c.Valid() && NoFaults(c.incoming)
    requires '\n' !in line && Bare(line) && |Encode(line)| + 1 < BufferSize
    requires c.Unread() == CrLf(line) + tail
    ensures InvokeSingleLine(c, command).result == Classify(line)
    ensures InvokeSingleLine(c, command).conn.Unread() == tail
    ensures NoFaults(InvokeSingleLine(c, command).conn.incoming)
  {
    ReadStatusCrLf(Send(c, command), line, tail);
  }

  /** The greeting: a positive first line opens the session and leaves the
      rest of the stream for the first command. */
  lemma ConnectGreeting(incoming: Script, greeting: string, tail: seq<byte>)
    requires NoFaults(incoming)
    requires '\n' !in greeting && Bare(greeting) && |Encode(greeting)| + 1 < BufferSize
    requires Stream(incoming) == CrLf(greeting) + tail
    ensures Connect(incoming).result.Success? <==> StartsWith(greeting, Positive)
    ensures Connect(incoming).conn.Unread() == tail
  {
    var c := Conn(New(), incoming, []);
    assert c.Unread() == Stream(incoming);
    ReadStatusCrLf(c, greeting, tail);
  }
}

=== FILE: line_reader.dfy ===
/** `LineReader` (src/line_reader.rs): a fixed 512-byte buffer with a cursor,
    filled from a blocking byte source until it holds a line feed, then
    handing out the decoded, trimmed text before that line feed and keeping
    the bytes after it for the next call.

    The byte source is a script of chunks: each `read` delivers as much of
    the next chunk as fits into the free part of the buffer and leaves the
    remainder at the head of the script, or fails with the transport error a
    `Fault` chunk carries. When the script is exhausted the Rust code would
    block on the socket (or spin on an exhausted slice); the model reports
    `Stalled` instead. */
module LineReader {
  import opened Base
  import opened Utf8

  const BufferSize: nat := 512
  /** `EOL`, the line feed. */
  const Eol: byte := LineFeed

  /** One answer of the transport's `read`. */
  datatype Chunk = Data(bytes: seq<byte>) | Fault(reason: string)

  type Script = seq<Chunk>

  /** Every byte the script will deliver, in order; failures deliver none. */
  function Stream(src: Script): seq<byte>
  {
    if src == [] then []
    else (match src[0] case Data(d) => d case Fault(_) => []) + Stream(src[1..])
  }

  /** A termination measure: bytes still to come plus one per chunk. */
  function Size(src: Script): nat
  {
    if src == [] then 0
    else (match src[0] case Data(d) => |d| + 1 case Fault(_) => 1) + Size(src[1..])
  }

  predicate NoFaults(src: Script)
  {
    forall i :: 0 <= i < |src| ==> src[i].Data?
  }

  datatype ReadOutcome = Got(bytes: seq<byte>, rest: Script) | Failed(reason: string, rest: Script) | Blocked

  /** `reader.read(&mut buf)` with `buf` of length `room`: copies
      `min(|chunk|, room)` bytes of the next chunk and keeps the rest. */
  function ReadInto(src: Script, room: nat): (o: ReadOutcome)
    ensures o.Blocked? <==> src == []
    ensures o.Failed? <==> src != [] && src[0].Fault?
    ensures o.Got? ==> |o.bytes| <= room && Stream(src) == o.bytes + Stream(o.rest)
    ensures o.Got? ==> Size(o.rest) + |o.bytes| <= Size(src)
    ensures o.Got? && room > 0 ==> Size(o.rest) < Size(src)
    ensures o.Failed? ==> Stream(o.rest) == Stream(src) && Size(o.rest) < Size(src)
    ensures NoFaults(src) && o.Got? ==> NoFaults(o.rest)
    ensures o.Got? ==> src[0].Data? && |o.bytes| == (if |src[0].bytes| <= room then |src[0].bytes| else room)
    ensures o.Got? && |src[0].bytes| <= room ==> o.bytes == src[0].bytes && o.rest == src[1..]
    ensures o.Got? && |src[0].bytes| > room ==> o.bytes == src[0].bytes[..room] && o.rest == [Data(src[0].bytes[room..])] + src[1..]
    ensures o.Failed? ==> o.reason == src[0].reason && o.rest == src[1..]
  {
    if src == [] then Blocked
    else match src[0]
      case Fault(e) => Failed(e, src[1..])
      case Data(d) =>
        if |d| <= room then Got(d, src[1..])
        else
          var rest := [Data(d[room..])] + src[1..];
          assert rest[1..] == src[1..];
          assert d == d[..room] + d[room..];
          Got(d[..room], rest)
  }

  datatype Reader = Reader(buffer: seq<byte>, pos: nat)
  {
    /** The buffer is exactly 512 bytes long and the cursor never leaves it. */
    predicate Valid()
    {
      |buffer| == BufferSize && pos <= BufferSize
    }

    /** The bytes received but not yet handed out: `buffer[0..pos)`. */
    function Pending(): seq<byte>
      requires Valid()
    {
      buffer[..pos]
    }
  }

  /** `LineReader::new()`. */
  function New(): (r: Reader)
    ensures r.Valid() && r.Pending() == []
  {
    Reader(seq(BufferSize, _ => 0), 0)
  }

  /** `get_eol`: where the first line feed among the buffered bytes is. */
  function GetEol(r: Reader): (k: Option<nat>)
    requires r.Valid()
    ensures k.None? <==> Eol !in r.Pending()
    ensures k.Some? ==> k.value < r.pos && r.buffer[k.value] == Eol
    ensures k.Some? ==> forall j :: 0 <= j < k.value ==> r.buffer[j] != Eol
  {
    IndexOf(r.Pending(), Eol)
  }

  /** `get_eol` as the loop the Rust code runs. */
  method ScanEol(r: Reader) returns (k: Option<nat>)
    requires r.Valid()
    ensures k == GetEol(r)
  {
    var i := 0;
    while i < r.pos
      invariant i <= r.pos
      invariant forall j :: 0 <= j < i ==> r.buffer[j] != Eol
    {
      if r.buffer[i] == Eol {
        IndexOfUnique(r.Pending(), Eol, i);
        return Some(i);
      }
      i := i + 1;
    }
    return None;
  }

  /** `buffer.copy_within(n.., 0); pos -= n`. The source shifts its fixed
      array in place; here the 512-byte sequence is rebuilt with the same
      contents, the last `n` bytes keeping their stale values. */
  function Consume(r: Reader, n: nat): (r': Reader)
    requires r.Valid() && n <= r.pos
    ensures r'.Valid() && r'.Pending() == r.Pending()[n..]
  {
    Reader(r.buffer[n..] + r.buffer[|r.buffer| - n..], r.pos - n)
  }

  /** The cursor advanced over `bytes` just read into `buffer[pos..]`. */
  function Append(r: Reader, bytes: seq<byte>): (r': Reader)
    requires r.Valid() && r.pos + |bytes| <= BufferSize
    ensures r'.Valid() && r'.pos == r.pos + |bytes|
    ensures r'.Pending() == r.Pending() + bytes
  {
    var r' := Reader(r.buffer[..r.pos] + bytes + r.buffer[r.pos + |bytes|..], r.pos + |bytes|);
    assert r'.buffer[..r'.pos] == r.Pending() + bytes;
    r'
  }

  datatype FillOutcome = Ready(reader: Reader, rest: Script) | Stopped(error: Error, reader: Reader, rest: Script)

  /** The `loop` of `read_line`: read until the buffer holds a line feed,
      failing when it is full without one or when the transport fails. */
  function Fill(r: Reader, src: Script): (o: FillOutcome)
    requires r.Valid()
    ensures o.reader.Valid()
    ensures r.Pending() + Stream(src) == o.reader.Pending() + Stream(o.rest)
    ensures o.reader.pos + Size(o.rest) <= r.pos + Size(src)
    ensures Eol in r.Pending() ==> o == Ready(r, src)
    ensures o.Ready? ==> Eol in o.reader.Pending()
    ensures o.Stopped? ==> o.error == BufferExceeded || o.error == Stalled || o.error.Io?
    ensures o.Stopped? && o.error == BufferExceeded ==> o.reader.pos == BufferSize && Eol !in o.reader.Pending()
    ensures o.Stopped? && o.error == Stalled ==> o.rest == [] && o.reader.pos < BufferSize && Eol !in o.reader.Pending()
    ensures o.Stopped? && o.error.Io? ==> !NoFaults(src) && o.reader.pos < BufferSize && Eol !in o.reader.Pending()
    ensures o.Stopped? ==> (o.error == BufferExceeded <==> o.reader.pos == BufferSize)
    ensures NoFaults(src) ==> NoFaults(o.rest)
    decreases Size(src)
  {
    if GetEol(r).Some? then Ready(r, src)
    else if r.pos >= BufferSize then Stopped(BufferExceeded, r, src)
    else match ReadInto(src, BufferSize - r.pos)
      case Blocked => Stopped(Stalled, r, src)
      case Failed(e, rest) => Stopped(Io(e), r, rest)
      case Got(bytes, rest) =>
        var r' := Append(r, bytes);
        AppendAssoc(r.Pending(), bytes, Stream(rest));
        assert Eol !in r'.Pending() ==> Eol !in r.Pending();
        Fill(r', rest)
  }

  /** Once the buffer holds a line feed, it is the first line feed of the
      whole stream, and consuming through it leaves the rest of the stream. */
  lemma LineFound(r: Reader, rest: Script, s: seq<byte>, eol: nat)
    requires r.Valid() && r.Pending() + Stream(rest) == s && GetEol(r) == Some(eol)
    ensures IndexOf(s, Eol) == Some(eol) && eol < BufferSize
    ensures r.buffer[..eol] == s[..eol]
    ensures Consume(r, eol + 1).Pending() + Stream(rest) == s[eol + 1..]
  {
    LineFoundIndex(r, rest, s, eol);
    LineFoundPrefix(r, rest, s, eol);
    LineFoundRest(r, rest, s, eol);
  }

  lemma LineFoundIndex(r: Reader, rest: Script, s: seq<byte>, eol: nat)
    requires r.Valid() && r.Pending() + Stream(rest) == s && GetEol(r) == Some(eol)
    ensures IndexOf(s, Eol) == Some(eol) && eol < BufferSize
  {
    var p := r.Pending();
    assert IndexOf(p, Eol) == Some(eol);
    IndexOfPrefix(p, Stream(rest), Eol);
  }

  lemma LineFoundPrefix(r: Reader, rest: Script, s: seq<byte>, eol: nat)
    requires r.Valid() && r.Pending() + Stream(rest) == s && GetEol(r) == Some(eol)
    ensures r.buffer[..eol] == s[..eol]
  {
    var p := r.Pending();
    assert r.buffer[..eol] == p[..eol];
    PrefixOfAppend(p, Stream(rest), eol);
  }

  lemma LineFoundRest(r: Reader, rest: Script, s: seq<byte>, eol: nat)
    requires r.Valid() && r.Pending() + Stream(rest) == s && GetEol(r) == Some(eol)
    ensures Consume(r, eol + 1).Pending() + Stream(rest) == s[eol + 1..]
  {
    var p := r.Pending();
    assert Consume(r, eol + 1).Pending() == p[eol + 1..];
    SuffixOfAppend(p, Stream(rest), eol + 1);
  }

  datatype LineRead = LineRead(result: Result<string, Error>, reader: Reader, rest: Script)

  /** The part of `read_line` after the loop: decode and trim the bytes
      before the first line feed, then shift the rest down. A decode error
      returns before the shift, leaving buffer and cursor as they were. */
  function TakeLine(r: Reader, rest: Script): (o: LineRead)
    requires r.Valid() && Eol in r.Pending()
    ensures o.reader.Valid() && o.rest == rest
    ensures o.result != Failure(NoLineAvailable)
    ensures var s := r.Pending() + Stream(rest);
      o.result.Success? ==>
        && Eol in s
        && var k := IndexOf(s, Eol).value;
        && k < BufferSize
        && Decode(s[..k]).Some?
        && o.result.value == Trim(Decode(s[..k]).value)
        && o.reader.Pending() + Stream(o.rest) == s[k + 1..]
        && o.reader.pos < r.pos
    ensures var s := r.Pending() + Stream(rest);
      o.result.Failure? ==>
        && o.result.error == InvalidUtf8
        && o.reader == r
        && Eol in s
        && var k := IndexOf(s, Eol).value;
        && k < BufferSize
        && Decode(s[..k]).None?
  {
    match GetEol(r)
    case None => LineRead(Failure(NoLineAvailable), r, rest)
    case Some(eol) =>
      LineFound(r, rest, r.Pending() + Stream(rest), eol);
      match Decode(r.buffer[..eol])
      case None => LineRead(Failure(InvalidUtf8), r, rest)
      case Some(text) => LineRead(Success(Trim(text)), Consume(r, eol + 1), rest)
  }

  /** `read_line`: fill until the buffer holds a line feed, then take the
      line. The outcome is characterized by the lemmas that follow. */
  function ReadLine(r: Reader, src: Script): (o: LineRead)
    requires r.Valid()
    ensures o.reader.Valid()
    ensures o.result != Failure(NoLineAvailable)
    ensures Eol in r.Pending() ==> o.rest == src
    ensures o.result.Failure? ==>
      o.result.error in {InvalidUtf8, BufferExceeded, Stalled} || (o.result.error.Io? && !NoFaults(src))
    ensures NoFaults(src) ==> NoFaults(o.rest)
    ensures o.reader.pos + Size(o.rest) <= r.pos + Size(src)
    ensures o.result.Success? ==> o.reader.pos + Size(o.rest) < r.pos + Size(src)
  {
    match Fill(r, src)
    case Stopped(e, r', rest) => LineRead(Failure(e), r', rest)
    case Ready(r', rest) => TakeLine(r', rest)
  }

  /** `line` is the trimmed text of the bytes before the first line feed of
      `s`, that line feed lies within a buffer's reach, and `after` is
      everything behind it. */
  ghost predicate Delivers(s: seq<byte>, line: string, after: seq<byte>)
  {
    && Eol in s
    && var k := IndexOf(s, Eol).value;
    && k < BufferSize
    && Decode(s[..k]).Some?
    && line == Trim(Decode(s[..k]).value)
    && after == s[k + 1..]
  }

  /** With S the buffered bytes followed by everything the source will
      deliver, a successful `read_line` returns the trimmed text of the
      bytes before the first line feed of S and leaves exactly the bytes
      after that line feed, buffered or still in the source. */
  lemma ReadLineSuccess(r: Reader, src: Script)
    requires r.Valid() && ReadLine(r, src).result.Success?
    ensures var o := ReadLine(r, src);
      Delivers(r.Pending() + Stream(src), o.result.value, o.reader.Pending() + Stream(o.rest))
  {
    match Fill(r, src)
    case Ready(r', rest) =>
      assert ReadLine(r, src) == TakeLine(r', rest);
      TakeLineSuccess(r', rest, r.Pending() + Stream(src));
  }

  /** `TakeLine`'s success case, over a stream named by the caller. */
  lemma TakeLineSuccess(r: Reader, rest: Script, s: seq<byte>)
    requires r.Valid() && Eol in r.Pending() && s == r.Pending() + Stream(rest)
    requires TakeLine(r, rest).result.Success?
    ensures var o := TakeLine(r, rest);
      Delivers(s, o.result.value, o.reader.Pending() + Stream(o.rest))
  {
  }

  /** A line that is not UTF-8 is reported with nothing consumed: the
      reader still holds it, line feed included. */
  lemma ReadLineInvalid(r: Reader, src: Script)
    requires r.Valid() && ReadLine(r, src).result == Failure(InvalidUtf8)
    ensures var o := ReadLine(r, src);
      var s := r.Pending() + Stream(src);
      && Eol in o.reader.Pending()
      && Eol in s
      && var k := IndexOf(s, Eol).value;
      && k < BufferSize
      && Decode(s[..k]).None?
      && o.reader.Pending() + Stream(o.rest) == s
  {
    match Fill(r, src)
    case Ready(r', rest) =>
      assert ReadLine(r, src) == TakeLine(r', rest);
      TakeLineInvalid(r', rest, r.Pending() + Stream(src));
  }

  /** `TakeLine`'s decode failure, over a stream named by the caller. */
  lemma TakeLineInvalid(r: Reader, rest: Script, s: seq<byte>)
    requires r.Valid() && Eol in r.Pending() && s == r.Pending() + Stream(rest)
    requires TakeLine(r, rest).result.Failure?
    ensures var o := TakeLine(r, rest);
      && o.reader == r && o.rest == rest
      && Eol in s
      && var k := IndexOf(s, Eol).value;
      && k < BufferSize
      && Decode(s[..k]).None?
  {
  }

  /** "buffer exceeded": the buffer is full and holds no line feed, and
      no byte was lost. */
  lemma ReadLineExceeded(r: Reader, src: Script)
    requires r.Valid() && ReadLine(r, src).result == Failure(BufferExceeded)
    ensures var o := ReadLine(r, src);
      && o.reader.pos == BufferSize
      && Eol !in o.reader.Pending()
      && o.reader.Pending() + Stream(o.rest) == r.Pending() + Stream(src)
  {
    match Fill(r, src)
    case Stopped(e, r', rest) =>
  }

  /** The source ran dry before a line feed arrived: everything it
      delivered is buffered. */
  lemma ReadLineStalled(r: Reader, src: Script)
    requires r.Valid() && ReadLine(r, src).result == Failure(Stalled)
    ensures var o := ReadLine(r, src);
      && o.rest == [] && o.reader.pos < BufferSize
      && o.reader.Pending() == r.Pending() + Stream(src)
      && Eol !in o.reader.Pending()
  {
    match Fill(r, src)
    case Stopped(e, r', rest) =>
  }

  /** The `loop` of `read_line` as the Rust code runs it, over the same state. */
  method FillLoop(r: Reader, src: Script) returns (o: FillOutcome)
    requires r.Valid()
    ensures o == Fill(r, src)
  {
    var reader: Reader, s: Script := r, src;
    var eol := ScanEol(reader);
    while eol.None?
      invariant reader.Valid()
      invariant Fill(reader, s) == Fill(r, src)
      invariant eol == GetEol(reader)
      decreases Size(s)
    {
      if reader.pos >= BufferSize {
        return Stopped(BufferExceeded, reader, s);
      }
      var got := ReadInto(s, BufferSize - reader.pos);
      match got {
        case Blocked =>
          return Stopped(Stalled, reader, s);
        case Failed(e, tail) =>
          return Stopped(Io(e), reader, tail);
        case Got(bytes, tail) =>
          reader, s := Append(reader, bytes), tail;
      }
      eol := ScanEol(reader);
    }
    return Ready(reader, s);
  }

  /** `read_line` as the Rust code runs it: the loop, then decoding and
      shifting once `get_eol` has found the line feed. */
  method ReadLineLoop(r: Reader, src: Script) returns (res: Result<string, Error>, r': Reader, rest: Script)
    requires r.Valid()
    ensures LineRead(res, r', rest) == ReadLine(r, src)
  {
    var filled := FillLoop(r, src);
    match filled {
      case Stopped(e, reader, s) =>
        return Failure(e), reader, s;
      case Ready(reader, s) =>
        var eol := ScanEol(reader);
        match eol {
          case Some(k) =>
            var line := Decode(reader.buffer[..k]);
            if line.None? {
              return Failure(InvalidUtf8), reader, s;
            }
            return Success(Trim(line.value)), Consume(reader, k + 1), s;
        }
    }
  }

  /** What one `read_line` yields, as a function of S (the buffered bytes
      followed by everything a fault-free source delivers) alone. */
  function Expected(s: seq<byte>): Result<string, Error>
  {
    var eol := IndexOf(s, Eol);
    if eol.Some? && eol.value < BufferSize then
      match Decode(s[..eol.value])
      case Some(text) => Success(Trim(text))
      case None => Failure(InvalidUtf8)
    else if |s| >= BufferSize then Failure(BufferExceeded)
    else Failure(Stalled)
  }

  /** Chunk-boundary independence: over a source that does not fail, what
      `read_line` returns depends only on the bytes, not on how the
      transport split them into reads. */
  lemma ReadLineMatchesExpected(r: Reader, src: Script)
    requires r.Valid() && NoFaults(src)
    ensures ReadLine(r, src).result == Expected(r.Pending() + Stream(src))
  {
    var o := ReadLine(r, src);
    var s := r.Pending() + Stream(src);
    match o.result {
      case Success(line) =>
        ReadLineSuccess(r, src);
        ExpectedLine(s);
      case Failure(e) =>
        if e == InvalidUtf8 {
          ReadLineInvalid(r, src);
          ExpectedLine(s);
        } else if e == BufferExceeded {
          ReadLineExceeded(r, src);
          ExpectedFull(o.reader.Pending(), Stream(o.rest));
        } else {
          assert e == Stalled;
          ReadLineStalled(r, src);
          ExpectedShort(s);
        }
    }
  }

  lemma ExpectedLine(s: seq<byte>)
    requires Eol in s && IndexOf(s, Eol).value < BufferSize
    ensures Expected(s) == match Decode(s[..IndexOf(s, Eol).value])
      case Some(text) => Success(Trim(text))
      case None => Failure(InvalidUtf8)
  {
  }

  lemma ExpectedShort(s: seq<byte>)
    requires Eol !in s && |s| < BufferSize
    ensures Expected(s) == Failure(Stalled)
  {
  }

  /** A full buffer without a line feed decides the outcome, whatever follows. */
  lemma ExpectedFull(p: seq<byte>, t: seq<byte>)
    requires |p| == BufferSize && Eol !in p
    ensures Expected(p + t) == Failure(BufferExceeded)
  {
    var s := p + t;
    assert forall j :: 0 <= j < BufferSize ==> s[j] == p[j];
  }

  /** A line that cannot fit: 512 bytes arrive without a line feed. */
  lemma ReadLineTooLong(r: Reader, src: Script)
    requires r.Valid() && NoFaults(src)
    requires |r.Pending() + Stream(src)| >= BufferSize
    requires Eol !in (r.Pending() + Stream(src))[..BufferSize]
    ensures ReadLine(r, src).result == Failure(BufferExceeded)
  {
    var s := r.Pending() + Stream(src);
    ReadLineMatchesExpected(r, src);
    assert s == s[..BufferSize] + s[BufferSize..];
    ExpectedFull(s[..BufferSize], s[BufferSize..]);
  }

  /** The longest line that fits: 511 bytes and the line feed. */
  lemma ReadLineLongest(r: Reader, src: Script, line: seq<byte>)
    requires r.Valid() && NoFaults(src)
    requires |line| == BufferSize - 1 && Eol !in line && Decode(line).Some?
    requires r.Pending() + Stream(src) == line + [Eol]
    ensures ReadLine(r, src).result == Success(Trim(Decode(line).value))
  {
    var s := line + [Eol];
    IndexOfUnique(s, Eol, |line|);
    assert s[..|line|] == line;
    ReadLineMatchesExpected(r, src);
  }

  /** A chunk that fits into the free part of the buffer is taken in one
      read, so nothing of it is left in the source. */
  lemma ReadLineWholeChunk(r: Reader, d: seq<byte>)
    requires r.Valid() && Eol !in r.Pending() && r.pos < BufferSize && r.pos + |d| <= BufferSize
    ensures ReadLine(r, [Data(d)]).rest == []
  {
    var r' := Append(r, d);
    assert [Data(d)][1..] == [];
    assert Fill(r, [Data(d)]) == Fill(r', []);
    FillDrained(r');
    ReadLineRest(r, [Data(d)]);
  }

  /** The loop reads no further once a line feed has arrived: a chunk that
      fits the free room and holds a line feed is the last one read, and the
      chunks after it stay in the source. */
  lemma FillStopsAtLine(r: Reader, d: seq<byte>, more: Script)
    requires r.Valid() && Eol !in r.Pending() && r.pos + |d| <= BufferSize && Eol in d
    ensures Fill(r, [Data(d)] + more) == Ready(Append(r, d), more)
  {
    var src := [Data(d)] + more;
    assert src[0] == Data(d) && src[1..] == more;
    assert ReadInto(src, BufferSize - r.pos) == Got(d, more);
    assert Eol in Append(r, d).Pending();
  }

  /** The same when only the first `room` bytes of the chunk fit and the
      line feed is among them: the remainder of that chunk and the chunks
      after it stay in the source. */
  lemma FillStopsInChunk(r: Reader, d: seq<byte>, more: Script)
    requires r.Valid() && Eol !in r.Pending() && r.pos < BufferSize
    requires |d| > BufferSize - r.pos && Eol in d[..BufferSize - r.pos]
    ensures var room := BufferSize - r.pos;
      Fill(r, [Data(d)] + more) == Ready(Append(r, d[..room]), [Data(d[room..])] + more)
  {
    var room := BufferSize - r.pos;
    var src := [Data(d)] + more;
    assert src[0] == Data(d) && src[1..] == more;
    assert ReadInto(src, room) == Got(d[..room], [Data(d[room..])] + more);
    assert Eol in Append(r, d[..room]).Pending();
  }

  /** `read_line` over a chunk that completes a line leaves every later
      chunk unread. */
  lemma ReadLineStopsAtLine(r: Reader, d: seq<byte>, more: Script)
    requires r.Valid() && Eol !in r.Pending() && r.pos + |d| <= BufferSize && Eol in d
    ensures ReadLine(r, [Data(d)] + more).rest == more
  {
    FillStopsAtLine(r, d, more);
    ReadLineRest(r, [Data(d)] + more);
  }

  /** `read_line` over a chunk whose first `room` bytes complete a line
      leaves the rest of that chunk and every later chunk unread. */
  lemma ReadLineStopsInChunk(r: Reader, d: seq<byte>, more: Script)
    requires r.Valid() && Eol !in r.Pending() && r.pos < BufferSize
    requires |d| > BufferSize - r.pos && Eol in d[..BufferSize - r.pos]
    ensures ReadLine(r, [Data(d)] + more).rest == [Data(d[BufferSize - r.pos..])] + more
  {
    FillStopsInChunk(r, d, more);
    ReadLineRest(r, [Data(d)] + more);
  }

  /** With nothing left to read, the loop leaves nothing unread. */
  lemma FillDrained(r: Reader)
    requires r.Valid()
    ensures Fill(r, []).rest == []
  {
  }

  lemma ReadLineRest(r: Reader, src: Script)
    requires r.Valid()
    ensures ReadLine(r, src).rest == Fill(r, src).rest
  {
  }

  /** The wire form of a line of text: its UTF-8 bytes and a line feed. */
  function Framed(text: string): seq<byte>
  {
    Encode(text) + [Eol]
  }

  /** Text sent as one line comes back trimmed, and exactly the bytes after
      its line feed remain, however the transport split the stream. */
  lemma ReadLineFramed(r: Reader, src: Script, text: string, tail: seq<byte>)
    requires r.Valid() && NoFaults(src)
    requires '\n' !in text && |Encode(text)| < BufferSize
    requires r.Pending() + Stream(src) == Framed(text) + tail
    ensures ReadLine(r, src).result == Success(Trim(text))
    ensures ReadLine(r, src).reader.Pending() + Stream(ReadLine(r, src).rest) == tail
    ensures NoFaults(ReadLine(r, src).rest)
  {
    FramedSplit(text, tail);
    ReadLineMatchesExpected(r, src);
    ReadLineSuccess(r, src);
  }

  /** In a framed line followed by anything, the first line feed is the
      frame's own, and the bytes before it decode to the text. */
  lemma FramedSplit(text: string, tail: seq<byte>)
    requires '\n' !in text
    ensures var s := Framed(text) + tail;
      var k := |Encode(text)|;
      && IndexOf(s, Eol) == Some(k)
      && s[..k] == Encode(text)
      && s[k + 1..] == tail
      && Decode(s[..k]) == Some(text)
  {
    EncodeNoLineFeed(text);
    LineSplit(Encode(text), tail);
    DecodeEncode(text);
  }

  /** The slicing facts of a frame, over its bytes alone. */
  lemma LineSplit(e: seq<byte>, tail: seq<byte>)
    requires Eol !in e
    ensures var s := e + [Eol] + tail;
      && IndexOf(s, Eol) == Some(|e|)
      && s[..|e|] == e
      && s[|e| + 1..] == tail
  {
    var s := e + [Eol] + tail;
    assert s[|e|] == Eol;
    assert forall j :: 0 <= j < |e| ==> s[j] == e[j];
    IndexOfUnique(s, Eol, |e|);
    assert s[|e| + 1..] == tail;
  }

  // ---------------------------------------------------------------------
  // The unit tests of src/line_reader.rs, for any text

  /** A script of one chunk delivers that chunk. */
  lemma StreamOne(d: seq<byte>)
    ensures Stream([Data(d)]) == d
  {
    assert [Data(d)][1..] == [];
  }

  /** A fresh reader fed one chunk holding a whole line and more: the line
      comes back and everything after it stays buffered. */
  lemma FirstLineOfChunk(text: string, tail: seq<byte>)
    requires '\n' !in text && |Framed(text)| + |tail| <= BufferSize
    ensures var first := ReadLine(New(), [Data(Framed(text) + tail)]);
      && first.result == Success(Trim(text))
      && first.rest == []
      && first.reader.Pending() == tail
  {
    var d := Framed(text) + tail;
    StreamOne(d);
    ReadLineFramed(New(), [Data(d)], text, tail);
    ReadLineWholeChunk(New(), d);
    var first := ReadLine(New(), [Data(d)]);
    AppendNil(first.reader.Pending());
  }

  /** A line already buffered is returned without reading: the source may
      be empty. */
  lemma BufferedLine(r: Reader, text: string)
    requires r.Valid() && '\n' !in text && r.Pending() == Framed(text)
    ensures ReadLine(r, []).result == Success(Trim(text))
  {
    AppendNil(Framed(text));
    ReadLineFramed(r, [], text, []);
  }

  /** The head of a line buffered, its remainder and line feed in the next
      chunk: the whole line comes back. */
  lemma CompletedLine(r: Reader, head: string, more: string)
    requires r.Valid() && '\n' !in head + more && |Encode(head + more)| < BufferSize
    requires r.Pending() == Encode(head)
    ensures ReadLine(r, [Data(Encode(more) + [Eol])]).result == Success(Trim(head + more))
  {
    StreamOne(Encode(more) + [Eol]);
    AppendAssoc(Encode(head), Encode(more), [Eol]);
    EncodeAppend(head, more);
    AppendNil(Framed(head + more));
    ReadLineFramed(r, [Data(Encode(more) + [Eol])], head + more, []);
  }

  /** `test_read_multiple_lines`: two lines in one read; the second call
      answers from the buffer. */
  lemma TwoLinesOneRead(a: string, b: string)
    requires '\n' !in a && '\n' !in b && |Framed(a)| + |Framed(b)| <= BufferSize
    ensures var first := ReadLine(New(), [Data(Framed(a) + Framed(b))]);
      && first.result == Success(Trim(a))
      && ReadLine(first.reader, []).result == Success(Trim(b))
  {
    FirstLineOfChunk(a, Framed(b));
    BufferedLine(ReadLine(New(), [Data(Framed(a) + Framed(b))]).reader, b);
  }

  /** `test_read_split_lines`: a line whose bytes straddle two reads is
      returned whole once its line feed arrives. */
  lemma LineAcrossReads(a: string, head: string, more: string)
    requires '\n' !in a && '\n' !in head + more
    requires |Framed(a)| + |Encode(head)| <= BufferSize && |Encode(head + more)| < BufferSize
    ensures var first := ReadLine(New(), [Data(Framed(a) + Encode(head))]);
      && first.result == Success(Trim(a))
      && ReadLine(first.reader, [Data(Encode(more) + [Eol])]).result == Success(Trim(head + more))
  {
    FirstLineOfChunk(a, Encode(head));
    CompletedLine(ReadLine(New(), [Data(Framed(a) + Encode(head))]).reader, head, more);
  }
}

=== FILE: response.dfy ===
/** The reply conventions of POP3 (section 3 of RFC 1939) as the client
    implements them in src/lib.rs: a status line that is positive when it
    begins with "+OK", and multi-line bodies that end at a line holding a
    single "." and have one leading "." removed from every other line that
    starts with one. */
module Response {
  import opened Base
  import opened Utf8
  import opened Text
  import opened LineReader

  const Positive: string := "+OK"
  const Terminator: string := "."

  /** The classification `read_status_line` applies to the line it read:
      a positive reply is returned as it is, anything else becomes an error
      carrying the whole line. */
  function Classify(line: string): Result<string, Error>
  {
    if StartsWith(line, Positive) then Success(line) else Failure(Negative(line))
  }

  /** The two status indicators of section 3 of RFC 1939: "+OK" lines are
      accepted whatever follows, "-ERR" lines are refused, and the error
      carries the indicator too, not only the text after it. */
  lemma StatusIndicators(text: string)
    ensures Classify(Positive + text) == Success(Positive + text)
    ensures Classify("-ERR" + text) == Failure(Negative("-ERR" + text))
  {
    assert (Positive + text)[..3] == Positive;
    assert ("-ERR" + text)[0] == '-';
  }

  /** A reply is positive exactly when it starts with "+OK". */
  lemma ClassifyPositive(line: string)
    ensures Classify(line).Success? <==> |line| >= 3 && line[0] == '+' && line[1] == 'O' && line[2] == 'K'
    ensures Classify(line).Success? ==> Classify(line).value == line
    ensures Classify(line).Failure? ==> Classify(line).error == Negative(line)
  {
    if |line| >= 3 && line[0] == '+' && line[1] == 'O' && line[2] == 'K' {
      assert line[..3] == Positive;
    }
  }

  /** One body line as `invoke_multi_line` stores it: without its first
      character when that is a ".". */
  function Unstuff(line: string): (r: string)
    ensures |line| - 1 <= |r| <= |line| && r == line[|line| - |r|..]
    ensures |r| < |line| ==> line[0] == '.'
    ensures |line| > 0 && line[0] == '.' ==> |r| == |line| - 1
  {
    if |line| > 0 && line[0] == '.' then line[1..] else line
  }

  /** The dot rule over the lines of a reply, status line excluded: the
      body ends at the first line equal to "." (None if there is none), and
      every line before it is unstuffed. */
  function DotBody(lines: seq<string>): (r: Option<seq<string>>)
    ensures r.Some? <==> Terminator in lines
    ensures r.Some? ==>
      && var t := IndexOf(lines, Terminator).value;
      && |r.value| == t
      && forall i :: 0 <= i < t ==> r.value[i] == Unstuff(lines[i])
  {
    if lines == [] then None
    else if lines[0] == Terminator then Some([])
    else match DotBody(lines[1..])
      case None => None
      case Some(rest) => Some([Unstuff(lines[0])] + rest)
  }

  /** One body line as a server sends it: a line that starts with "."
      gets one more. */
  function StuffLine(line: string): string
  {
    if |line| > 0 && line[0] == '.' then "." + line else line
  }

  /** Unstuffing undoes stuffing, and no stuffed line is the terminator. */
  lemma UnstuffStuffLine(line: string)
    ensures Unstuff(StuffLine(line)) == line
    ensures StuffLine(line) != Terminator
  {
    if |line| > 0 && line[0] == '.' {
      assert ("." + line)[1..] == line;
      assert |"." + line| >= 2;
    } else if line != [] {
      assert StuffLine(line)[0] != '.';
    }
  }

  /** What a server sends for a body (section 3 of RFC 1939): every line
      stuffed, then a lone "." to end the body. */
  function Stuff(body: seq<string>): (wire: seq<string>)
    ensures |wire| == |body| + 1
  {
    if body == [] then [Terminator] else [StuffLine(body[0])] + Stuff(body[1..])
  }

  /** Round trip: the client recovers every body the server stuffed,
      whatever follows the terminator. */
  lemma {:induction false} DotBodyStuff(body: seq<string>, after: seq<string>)
    ensures DotBody(Stuff(body) + after) == Some(body)
  {
    if body == [] {
      assert (Stuff(body) + after)[0] == Terminator;
    } else {
      var x := StuffLine(body[0]);
      var rest := Stuff(body[1..]) + after;
      UnstuffStuffLine(body[0]);
      assert Stuff(body) + after == [x] + rest;
      DotBodyStuff(body[1..], after);
      DotBodyCons(x, rest);
      assert body == [body[0]] + body[1..];
    }
  }

  /** The dot rule on a line that does not end the body. */
  lemma DotBodyCons(x: string, rest: seq<string>)
    requires x != Terminator && DotBody(rest).Some?
    ensures DotBody([x] + rest) == Some([Unstuff(x)] + DotBody(rest).value)
  {
    assert ([x] + rest)[1..] == rest;
  }

  /** `str::trim` applied to every line, as `read_line` does. */
  function TrimAll(lines: seq<string>): (r: seq<string>)
    ensures |r| == |lines|
    ensures forall i :: 0 <= i < |lines| ==> r[i] == Trim(lines[i])
  {
    if lines == [] then [] else [Trim(lines[0])] + TrimAll(lines[1..])
  }

  /** The connection state the response engine works on: the line reader,
      what the server will still send, and every byte written so far. */
  datatype Conn = Conn(reader: Reader, incoming: Script, outgoing: seq<byte>)
  {
    predicate Valid() { reader.Valid() }

    /** Bytes received but not yet consumed, followed by what is to come. */
    function Unread(): seq<byte>
      requires Valid()
    {
      reader.Pending() + Stream(incoming)
    }
  }

  datatype Reply<T> = Reply(result: Result<T, Error>, conn: Conn)

  /** `self.tls.write(command.as_bytes())`: the whole command is sent. */
  function Send(c: Conn, command: string): (c': Conn)
    ensures c'.reader == c.reader && c'.incoming == c.incoming
    ensures c'.outgoing == c.outgoing + Encode(command)
  {
    Conn(c.reader, c.incoming, c.outgoing + Encode(command))
  }

  /** `read_status_line`: reads exactly one line and classifies it. */
  function ReadStatusLine(c: Conn): (o: Reply<string>)
    requires c.Valid()
    ensures o.conn.Valid() && o.conn.outgoing == c.outgoing
    ensures var l := ReadLine(c.reader, c.incoming);
      && o.conn.reader == l.reader && o.conn.incoming == l.rest
      && (o.result.Success? <==> l.result.Success? && StartsWith(l.result.value, Positive))
      && (o.result.Success? ==> o.result.value == l.result.value)
      && (l.result.Success? && o.result.Failure? ==> o.result.error == Negative(l.result.value))
      && (l.result.Failure? ==> o.result == Failure(l.result.error))
  {
    var l := ReadLine(c.reader, c.incoming);
    var c' := Conn(l.reader, l.rest, c.outgoing);
    match l.result
    case Failure(e) => Reply(Failure(e), c')
    case Success(line) => Reply(Classify(line), c')
  }

  /** The `loop` of `invoke_multi_line`: reads lines up to the terminator,
      unstuffing the others, and fails as soon as a read fails. */
  function ReadBody(c: Conn): (o: Reply<seq<string>>)
    requires c.Valid()
    ensures o.conn.Valid() && o.conn.outgoing == c.outgoing
    ensures NoFaults(c.incoming) ==> NoFaults(o.conn.incoming)
    ensures o.result != Failure(NoLineAvailable)
    ensures o.result.Failure? ==> o.result.error in {InvalidUtf8, BufferExceeded, Stalled} || o.result.error.Io?
    decreases c.reader.pos + Size(c.incoming)
  {
    var l := ReadLine(c.reader, c.incoming);
    var c' := Conn(l.reader, l.rest, c.outgoing);
    match l.result
    case Failure(e) => Reply(Failure(e), c')
    case Success(line) =>
      if line == Terminator then Reply(Success([]), c')
      else
        var more := ReadBody(c');
        match more.result
        case Failure(e) => Reply(Failure(e), more.conn)
        case Success(body) => Reply(Success([Unstuff(line)] + body), more.conn)
  }

  /** The wire form of several lines. */
  function FramedAll(lines: seq<string>): seq<byte>
  {
    if lines == [] then [] else Framed(lines[0]) + FramedAll(lines[1..])
  }

  /** Lines the transport can carry: no line feed inside, and short enough
      for the 512-byte buffer together with their line feed. */
  predicate Carriable(lines: seq<string>)
  {
    forall i :: 0 <= i < |lines| ==> '\n' !in lines[i] && |Encode(lines[i])| < BufferSize
  }

  /** Reading a body off the wire: when the server sends `wire`, whose
      last line is the first one that trims to ".", the client returns the
      dot rule applied to the trimmed lines and consumes exactly those
      lines, however the transport split them. */
  lemma {:induction false} ReadBodyFramed(c: Conn, wire: seq<string>, tail: seq<byte>)
    requires c.Valid() && NoFaults(c.incoming) && Carriable(wire)
    requires wire != [] && IndexOf(TrimAll(wire), Terminator) == Some(|wire| - 1)
    requires c.Unread() == FramedAll(wire) + tail
    ensures DotBody(TrimAll(wire)).Some?
    ensures ReadBody(c).result == Success(DotBody(TrimAll(wire)).value)
    ensures ReadBody(c).conn.Unread() == tail
    ensures NoFaults(ReadBody(c).conn.incoming)
    decreases |wire|
  {
    var rest := FramedAll(wire[1..]) + tail;
    FramedAllCons(wire, tail);
    ReadLineFramed(c.reader, c.incoming, wire[0], rest);
    var l := ReadLine(c.reader, c.incoming);
    var c' := Conn(l.reader, l.rest, c.outgoing);
    assert c'.Unread() == rest;
    var trimmed := TrimAll(wire);
    if Trim(wire[0]) == Terminator {
      assert |wire| == 1;
    } else {
      TrimAllTail(wire);
      CarriableTail(wire);
      ReadBodyFramed(c', wire[1..], tail);
    }
  }

  lemma FramedAllCons(wire: seq<string>, tail: seq<byte>)
    requires wire != []
    ensures FramedAll(wire) + tail == Framed(wire[0]) + (FramedAll(wire[1..]) + tail)
  {
  }

  lemma TrimAllTail(wire: seq<string>)
    requires |wire| > 1 && IndexOf(TrimAll(wire), Terminator) == Some(|wire| - 1)
    ensures Trim(wire[0]) != Terminator
    ensures IndexOf(TrimAll(wire[1..]), Terminator) == Some(|wire| - 2)
    ensures DotBody(TrimAll(wire)).Some? && DotBody(TrimAll(wire[1..])).Some?
    ensures DotBody(TrimAll(wire)).value == [Unstuff(Trim(wire[0]))] + DotBody(TrimAll(wire[1..])).value
  {
    TrimAllCons(wire);
    DotBodyTail(TrimAll(wire));
  }

  lemma TrimAllCons(wire: seq<string>)
    requires wire != []
    ensures TrimAll(wire)[1..] == TrimAll(wire[1..])
  {
  }

  /** Peeling one line off a reply whose terminator comes later. */
  lemma DotBodyTail(lines: seq<string>)
    requires |lines| > 1 && IndexOf(lines, Terminator) == Some(|lines| - 1)
    ensures lines[0] != Terminator
    ensures IndexOf(lines[1..], Terminator) == Some(|lines| - 2)
    ensures DotBody(lines).Some? && DotBody(lines[1..]).Some?
    ensures DotBody(lines).value == [Unstuff(lines[0])] + DotBody(lines[1..]).value
  {
  }

  lemma CarriableTail(wire: seq<string>)
    requires wire != [] && Carriable(wire)
    ensures Carriable(wire[1..])
  {
    forall i | 0 <= i < |wire| - 1 ensures '\n' !in wire[1..][i] && |Encode(wire[1..][i])| < BufferSize {
      assert wire[1..][i] == wire[i + 1];
    }
  }

  /** What a server sends for one line of a reply: the text, then CR LF. */
  function CrLf(line: string): seq<byte>
  {
    Framed(line + "\r")
  }

  /** The lines of a reply, each with its carriage return. */
  function CrLines(lines: seq<string>): (wire: seq<string>)
    ensures |wire| == |lines|
    ensures forall i :: 0 <= i < |lines| ==> wire[i] == lines[i] + "\r"
  {
    if lines == [] then [] else [lines[0] + "\r"] + CrLines(lines[1..])
  }

  /** Lines a server can send so that the client reads them back as they
      are: no line feed inside, no whitespace at either end, and room in the
      buffer for a stuffing ".", the CR and the line feed. */
  predicate Sendable(lines: seq<string>)
  {
    forall i :: 0 <= i < |lines| ==> '\n' !in lines[i] && Bare(lines[i]) && |Encode(lines[i])| + 2 < BufferSize
  }

  /** A status line sent with CR LF is read back, classified, and exactly
      the bytes after it remain. */
  lemma ReadStatusCrLf(c: Conn, line: string, tail: seq<byte>)
    requires c.Valid() && NoFaults(c.incoming)
    requires '\n' !in line && Bare(line) && |Encode(line)| + 1 < BufferSize
    requires c.Unread() == CrLf(line) + tail
    ensures ReadStatusLine(c).result == Classify(line)
    ensures ReadStatusLine(c).conn.Unread() == tail
    ensures NoFaults(ReadStatusLine(c).conn.incoming)
  {
    CrLineRead(line);
    ReadLineFramed(c.reader, c.incoming, line + "\r", tail);
  }

  /** A dot-stuffed body sent with CR LF line ends comes back line for
      line, and exactly the bytes after its terminator remain. */
  lemma ReadBodyStuffed(c: Conn, body: seq<string>, tail: seq<byte>)
    requires c.Valid() && NoFaults(c.incoming) && Sendable(body)
    requires c.Unread() == FramedAll(CrLines(Stuff(body))) + tail
    ensures ReadBody(c).result == Success(body)
    ensures ReadBody(c).conn.Unread() == tail
    ensures NoFaults(ReadBody(c).conn.incoming)
  {
    var stuffed := Stuff(body);
    StuffedLines(body);
    CrLinesRead(stuffed);
    StuffedTerminator(body);
    ReadBodyFramed(c, CrLines(stuffed), tail);
  }

  /** Bare lines sent with CR are trimmed back to themselves. */
  lemma CrLinesRead(lines: seq<string>)
    requires forall i :: 0 <= i < |lines| ==> '\n' !in lines[i] && Bare(lines[i]) && |Encode(lines[i])| + 1 < BufferSize
    ensures TrimAll(CrLines(lines)) == lines
    ensures Carriable(CrLines(lines))
  {
    var wire := CrLines(lines);
    forall i | 0 <= i < |wire|
      ensures Trim(wire[i]) == lines[i]
      ensures '\n' !in wire[i] && |Encode(wire[i])| < BufferSize
    {
      CrLineRead(lines[i]);
    }
    TrimAllEach(wire, lines);
  }

  lemma TrimAllEach(wire: seq<string>, lines: seq<string>)
    requires |wire| == |lines| && forall i :: 0 <= i < |wire| ==> Trim(wire[i]) == lines[i]
    ensures TrimAll(wire) == lines
  {
  }

  lemma CrLineRead(line: string)
    requires '\n' !in line && Bare(line) && |Encode(line)| + 1 < BufferSize
    ensures Trim(line + "\r") == line
    ensures '\n' !in line + "\r" && |Encode(line + "\r")| < BufferSize
  {
    TrimCarriageReturn(line);
    EncodeCarriageReturn(line);
    assert forall j :: 0 <= j < |line| ==> (line + "\r")[j] == line[j];
  }

  /** In a stuffed body the terminator comes last and nowhere else, and
      the dot rule gives the body back. */
  lemma StuffedTerminator(body: seq<string>)
    ensures IndexOf(Stuff(body), Terminator) == Some(|body|)
    ensures DotBody(Stuff(body)) == Some(body)
  {
    var stuffed := Stuff(body);
    StuffNoTerminator(body);
    IndexOfUnique(stuffed, Terminator, |body|);
    DotBodyStuff(body, []);
    assert stuffed + [] == stuffed;
  }

  lemma StuffNoTerminator(body: seq<string>)
    ensures Stuff(body)[|body|] == Terminator
    ensures forall i :: 0 <= i < |body| ==> Stuff(body)[i] != Terminator
  {
    StuffAt(body, |body|);
    forall i | 0 <= i < |body| ensures Stuff(body)[i] != Terminator {
      StuffAt(body, i);
      UnstuffStuffLine(body[i]);
    }
  }

  /** Line `i` of a stuffed body: the stuffed body line, or the terminator. */
  lemma {:induction false} StuffAt(body: seq<string>, i: nat)
    requires i <= |body|
    ensures Stuff(body)[i] == if i < |body| then StuffLine(body[i]) else Terminator
  {
    if i > 0 {
      var rest := body[1..];
      assert Stuff(body) == [StuffLine(body[0])] + Stuff(rest);
      StuffAt(rest, i - 1);
      assert i - 1 < |rest| ==> rest[i - 1] == body[i];
    }
  }

  /** Every line `Stuff` produces is bare, carries no line feed and fits. */
  lemma StuffedLines(body: seq<string>)
    requires Sendable(body)
    ensures var wire := Stuff(body);
      forall i :: 0 <= i < |wire| ==> '\n' !in wire[i] && Bare(wire[i]) && |Encode(wire[i])| + 1 < BufferSize
  {
    var wire := Stuff(body);
    forall i | 0 <= i < |wire|
      ensures '\n' !in wire[i] && Bare(wire[i]) && |Encode(wire[i])| + 1 < BufferSize
    {
      StuffAt(body, i);
      if i < |body| {
        StuffLineSendable(body[i]);
      } else {
        TerminatorSendable();
      }
    }
  }

  lemma TerminatorSendable()
    ensures '\n' !in Terminator && Bare(Terminator) && |Encode(Terminator)| + 1 < BufferSize
  {
    assert Encode(Terminator) == EncodeChar('.') + Encode([]);
  }

  lemma StuffLineSendable(line: string)
    requires '\n' !in line && Bare(line) && |Encode(line)| + 2 < BufferSize
    ensures var x := StuffLine(line); '\n' !in x && Bare(x) && |Encode(x)| + 1 < BufferSize
  {
    if |line| > 0 && line[0] == '.' {
      var x := "." + line;
      EncodeAppend(".", line);
      assert x[|x| - 1] == line[|line| - 1];
      assert x[0] == '.';
    }
  }

  /** Lines are trimmed before the dot rule sees them, so a line that is a
      "." with whitespace around it ends the body just as "." does, and the
      lines after it are never read as part of the body. */
  lemma TrimmedTerminator(before: string, after: string, rest: seq<string>)
    requires AllWhitespace(before) && AllWhitespace(after)
    ensures DotBody(TrimAll([before + "." + after] + rest)) == Some([])
  {
    assert before + "." + after == before + ("." + after);
    TrimStartWhitespace(before, "." + after);
    TrimEndWhitespace(".", after);
  }

  /** An indented body line, such as the continuation of a folded header
      field, is read back without its indentation or its CR. */
  lemma TrimmedIndent(indent: string, text: string)
    requires AllWhitespace(indent) && Bare(text)
    ensures Trim(indent + text + "\r") == text
  {
    assert indent + text + "\r" == indent + (text + "\r");
    TrimStartWhitespace(indent, text + "\r");
    TrimCarriageReturn(text);
  }

  /** `invoke_single_line`: sends the command, then reads its status line. */
  function InvokeSingleLine(c: Conn, command: string): (o: Reply<string>)
    requires c.Valid()
    ensures o == ReadStatusLine(Send(c, command))
    ensures o.conn.Valid() && o.conn.outgoing == c.outgoing + Encode(command)
    ensures o.result.Success? ==> StartsWith(o.result.value, Positive)
    ensures o.result.Failure? ==> o.result.error.Negative? || o.result.error in {InvalidUtf8, BufferExceeded, Stalled} || o.result.error.Io?
    ensures o.result.Failure? && o.result.error.Negative? ==> !StartsWith(o.result.error.line, Positive)
  {
    ReadStatusLine(Send(c, command))
  }

  /** `invoke_multi_line`: sends the command and reads the status line; a
      negative status fails before any body line is read, a positive one is
      followed by the body. */
  function InvokeMultiLine(c: Conn, command: string): (o: Reply<seq<string>>)
    requires c.Valid()
    ensures o.conn.Valid()
    ensures o.conn.outgoing == c.outgoing + Encode(command)
    ensures var st := ReadStatusLine(Send(c, command));
      && (st.result.Failure? ==> o == Reply(Failure(st.result.error), st.conn))
      && (st.result.Success? ==> o == ReadBody(st.conn))
    ensures o.result.Failure? ==> o.result.error.Negative? || o.result.error in {InvalidUtf8, BufferExceeded, Stalled} || o.result.error.Io?
  {
    var st := ReadStatusLine(Send(c, command));
    match st.result
    case Failure(e) => Reply(Failure(e), st.conn)
    case Success(_) => ReadBody(st.conn)
  }

  /** A whole multi-line exchange: a positive status line and a stuffed
      body sent with CR LF give back the body, and nothing after the
      terminator is consumed. */
  lemma InvokeMultiLineStuffed(c: Conn, command: string, status: string, body: seq<string>, tail: seq<byte>)
    requires c.Valid() && NoFaults(c.incoming) && Sendable(body)
    requires '\n' !in status && Bare(status) && |Encode(status)| + 1 < BufferSize && StartsWith(status, Positive)
    requires c.Unread() == CrLf(status) + FramedAll(CrLines(Stuff(body))) + tail
    ensures InvokeMultiLine(c, command).result == Success(body)
    ensures InvokeMultiLine(c, command).conn.Unread() == tail
    ensures NoFaults(InvokeMultiLine(c, command).conn.incoming)
  {
    var wire := FramedAll(CrLines(Stuff(body)));
    AppendAssoc(CrLf(status), wire, tail);
    MultiLineAccepted(c, command, status, wire + tail);
    ReadBodyStuffed(ReadStatusLine(Send(c, command)).conn, body, tail);
  }

  /** A positive status line sent with CR LF hands the rest of the stream
      to the body loop. */
  lemma MultiLineAccepted(c: Conn, command: string, status: string, rest: seq<byte>)
    requires c.Valid() && NoFaults(c.incoming)
    requires '\n' !in status && Bare(status) && |Encode(status)| + 1 < BufferSize && StartsWith(status, Positive)
    requires c.Unread() == CrLf(status) + rest
    ensures var st := ReadStatusLine(Send(c, command));
      && st.conn.Valid() && NoFaults(st.conn.incoming) && st.conn.Unread() == rest
      && InvokeMultiLine(c, command) == ReadBody(st.conn)
  {
    var c' := Send(c, command);
    assert c'.Unread() == c.Unread();
    ReadStatusCrLf(c', status, rest);
  }
}

=== FILE: scenarios.dfy ===
/** The unit tests of src/line_reader.rs and worked examples of the reply
    formats from RFC 1939, stated as lemmas over the model. Each literal
    fact sits in a lemma of its own; the instances combine them with the
    general lemmas of the other modules. */
module Scenarios {
  import opened Base
  import opened Utf8
  import opened Text
  import opened LineReader
  import opened Response
  import opened Session
  import opened Exchanges

  // ---------------------------------------------------------------------
  // Literal facts

  lemma HelloFrame()
    ensures Framed("Hello") + [] == [0x48, 0x65, 0x6C, 0x6C, 0x6F, 0x0A]
  {
  }

  lemma HelloText()
    ensures '\n' !in "Hello" && Trim("Hello") == "Hello"
  {
    TrimUnchanged("Hello");
  }

  lemma WorldText()
    ensures '\n' !in "World" && Trim("World") == "World"
  {
    TrimUnchanged("World");
  }

  lemma WorldPieces()
    ensures "Wor" + "ld" == "World"
  {
  }

  // ---------------------------------------------------------------------
  // The unit tests of src/line_reader.rs

  /** `test_read_single_line`: b"Hello\n" in one read. */
  lemma ReadSingleLine()
    ensures ReadLine(New(), [Data([0x48, 0x65, 0x6C, 0x6C, 0x6F, 0x0A])]).result == Success("Hello")
  {
    HelloText();
    HelloFrame();
    FirstLineOfChunk("Hello", []);
  }

  /** `test_read_multiple_lines`: b"Hello\nWorld\n" in one read, then a
      second call over an empty slice still yields "World". */
  lemma ReadMultipleLines()
    ensures var first := ReadLine(New(), [Data(Framed("Hello") + Framed("World"))]);
      && first.result == Success("Hello")
      && ReadLine(first.reader, []).result == Success("World")
  {
    HelloText();
    WorldText();
    TwoLinesOneRead("Hello", "World");
  }

  /** `test_read_split_lines`: b"Hello\nWor", then b"ld\n". */
  lemma ReadSplitLines()
    ensures var first := ReadLine(New(), [Data(Framed("Hello") + Encode("Wor"))]);
      && first.result == Success("Hello")
      && ReadLine(first.reader, [Data(Encode("ld") + [Eol])]).result == Success("World")
  {
    HelloText();
    WorldText();
    WorldPieces();
    LineAcrossReads("Hello", "Wor", "ld");
  }

  /** `test_read_buffer_exceeded`: 512 zero bytes. */
  lemma ReadBufferExceeded()
    ensures ReadLine(New(), [Data(seq(512, _ => 0))]).result == Failure(BufferExceeded)
  {
    var d: seq<byte> := seq(512, _ => 0);
    StreamOne(d);
    assert New().Pending() + d == d;
    assert d[..BufferSize] == d;
    assert forall i :: 0 <= i < |d| ==> d[i] == 0;
    ReadLineTooLong(New(), [Data(d)]);
  }

  // ---------------------------------------------------------------------
  // Reply examples

  /** A stuffed line loses its first dot; the terminator ends the body and
      the line after it is not part of it. */
  lemma StuffedDot()
    ensures DotBody(["..x", ".", "after"]) == Some([".x"])
  {
    assert DotBody([".", "after"]) == Some([]) by {
      assert [".", "after"][0] == Terminator;
    }
    assert Unstuff("..x") == ".x" by {
      assert "..x"[1..] == ".x";
    }
    assert "..x" != Terminator by {
      assert |"..x"| != |Terminator|;
    }
    assert ["..x"] + [".", "after"] == ["..x", ".", "after"];
    DotBodyCons("..x", [".", "after"]);
    assert [".x"] + [] == [".x"];
  }

  /** A line with a single leading dot loses it. */
  lemma SingleDot()
    ensures DotBody([".x", "."]) == Some(["x"])
  {
    assert DotBody(["."]) == Some([]) by {
      assert ["."][0] == Terminator;
    }
    assert Unstuff(".x") == "x" by {
      assert ".x"[1..] == "x";
    }
    assert ".x" != Terminator by {
      assert |".x"| != |Terminator|;
    }
    assert [".x"] + ["."] == [".x", "."];
    DotBodyCons(".x", ["."]);
    assert ["x"] + [] == ["x"];
  }

  /** "+OK 2 320", the STAT reply of section 5 of RFC 1939. */
  lemma StatExample()
    ensures ParseStat("+OK 2 320") == Success(MailboxStat(2, 320))
  {
    StatExampleLine();
    ParseStatLine(MailboxStat(2, 320));
  }

  lemma StatExampleLine()
    ensures StatLine(MailboxStat(2, 320)) == "+OK 2 320"
  {
    DecimalTwo();
    DecimalExample(320, "320");
    assert Join(["+OK", "2", "320"], ' ') == "+OK 2 320";
  }

  /** "+OK 2 200", the reply to "LIST 2" in section 5 of RFC 1939. */
  lemma SizeExample()
    ensures ParseSizeReply("+OK 2 200") == Success(200)
  {
    SizeExampleLine();
    ParseSizeLine(2, 200);
  }

  lemma SizeExampleLine()
    ensures SizeLine(2, 200) == "+OK 2 200"
  {
    DecimalTwo();
    DecimalExample(200, "200");
    assert Join(["+OK", "2", "200"], ' ') == "+OK 2 200";
  }

  lemma DecimalTwo()
    ensures Decimal(2) == "2"
  {
  }

  /** A three-digit literal is the decimal form of its value. */
  lemma DecimalExample(n: nat, s: string)
    requires 100 <= n < 1000 && |s| == 3
    requires s[0] == DigitChar(n / 100) && s[1] == DigitChar(n / 10 % 10) && s[2] == DigitChar(n % 10)
    ensures Decimal(n) == s
  {
    assert Decimal(n / 10) == [DigitChar(n / 100), DigitChar(n / 10 % 10)] by {
      assert Decimal(n / 100) == [DigitChar(n / 100)];
    }
  }

  /** `parse::<u32>` on a digit followed by a non-digit. */
  lemma BadDigitExample()
    ensures ParseU32("1x") == Failure(InvalidDigit)
  {
    assert DigitRun("1x") == 1 by {
      assert "1x"[1..] == "x";
    }
    assert "1x"[..1] == "1";
  }

  /** An unsigned parse has no minus sign. */
  lemma MinusExample()
    ensures ParseU32("-1") == Failure(InvalidDigit)
  {
    assert "-1"[..0] == [];
  }

  /** Eleven nines overflow before the stray letter is reached. */
  lemma OverflowFirstExample()
    ensures ParseU32("99999999999x") == Failure(PosOverflow)
  {
    var s := "99999999999x";
    assert s[..11] == "99999999999";
    OverflowFirst(s);
  }

  /** An unsigned text that opens with eleven digits, the first a nine, overflows. */
  lemma OverflowFirst(s: string)
    requires 11 <= |s| && s[0] == '9' && AllDigits(s[..11])
    ensures ParseU32(s) == Failure(PosOverflow)
  {
    var k := DigitRun(s);
    DigitRunAtLeast(s, 11);
    assert s[..k][0] == s[0];
    DecValueAtLeast(s[..k]);
  }

  lemma DigitRunAtLeast(ds: string, n: nat)
    requires n <= |ds| && AllDigits(ds[..n])
    ensures DigitRun(ds) >= n
  {
    forall i | 0 <= i < n ensures IsDigit(ds[i]) {
      assert ds[..n][i] == ds[i];
    }
  }

  /** A run of at least eleven digits starting with a nine is at least 9 * 10^10. */
  lemma DecValueAtLeast(run: string)
    requires 11 <= |run| && AllDigits(run) && run[0] == '9'
    ensures DecValue(run) >= U32Limit
  {
    var p := Pow10(|run| - 1);
    assert p >= Pow10(10) by {
      Pow10Mono(10, |run| - 1);
    }
    assert DigitValue(run[0]) == 9;
    assert DecValue(run) >= 9 * p;
  }

  lemma {:induction false} Pow10Mono(a: nat, b: nat)
    requires a <= b
    ensures Pow10(a) <= Pow10(b)
  {
    if a < b {
      Pow10Mono(a, b - 1);
    }
  }

  /** A refusal keeps the whole line. */
  lemma RefusalExample()
    ensures Classify("-ERR no such message") == Failure(Negative("-ERR no such message"))
  {
    assert "-ERR no such message"[0] == '-';
  }

  /** A LIST line without a size. */
  lemma MissingSizeExample()
    ensures ParseListEntry("7") == Failure(Missing("size"))
  {
    assert Split("7", ' ') == ["7"];
  }
}

=== FILE: session.dfy ===
/** The commands of `Pop3Connection` (src/lib.rs). Each one formats a
    command line, runs it through the response engine and, where the reply
    carries data, takes it apart with `split(' ')` and `parse::<u32>`,
    failing with a named "missing ..." error when a token is absent. */
module Session {
  import opened Base
  import opened Utf8
  import opened Text
  import opened LineReader
  import opened Response

  /** `Pop3Stat`. */
  datatype MailboxStat = MailboxStat(messageCount: u32, maildropSize: u32)

  /** `Pop3MessageInfo`. */
  datatype MessageInfo = MessageInfo(messageId: u32, messageSize: u32)

  /** `Pop3MessageUidInfo`. */
  datatype MessageUidInfo = MessageUidInfo(messageId: u32, uniqueId: string)

  /** `format!("VERB {} {}\r\n", ...)`: the verb and its arguments, each
      after one space, and CR LF. */
  function Command(verb: string, args: seq<string>): string
  {
    Join([verb] + args, ' ') + "\r\n"
  }

  lemma CommandForms(verb: string, a: string, b: string)
    ensures Command(verb, []) == verb + "\r\n"
    ensures Command(verb, [a]) == verb + " " + a + "\r\n"
    ensures Command(verb, [a, b]) == verb + " " + a + " " + b + "\r\n"
  {
    assert [verb] + [] == [verb];
    assert [verb] + [a] == [verb, a];
    assert [verb, a][1..] == [a];
    assert Join([verb, a], ' ') == verb + " " + a;
    assert [verb] + [a, b] == [verb, a, b];
    assert [verb, a, b][1..] == [a, b];
    assert [a, b][1..] == [b];
    assert Join([a, b], ' ') == a + " " + b;
    assert Join([verb, a, b], ' ') == verb + " " + (a + " " + b);
  }

  /** The server's side of a command: with no space, CR or line feed in
      the verb and arguments, the command is one line, and splitting it at
      spaces gives back the verb and the arguments. */
  lemma {:induction false} CommandTokens(verb: string, args: seq<string>)
    requires ' ' !in verb && '\r' !in verb && '\n' !in verb
    requires forall i :: 0 <= i < |args| ==> ' ' !in args[i] && '\r' !in args[i] && '\n' !in args[i]
    ensures var line := Command(verb, args);
      && |line| >= 2 && line[|line| - 2..] == "\r\n"
      && '\r' !in line[..|line| - 2] && '\n' !in line[..|line| - 2]
      && Split(line[..|line| - 2], ' ') == [verb] + args
  {
    var parts := [verb] + args;
    var text := Join(parts, ' ');
    var line := Command(verb, args);
    assert line[..|line| - 2] == text;
    assert forall i :: 0 <= i < |parts| ==> ' ' !in parts[i] && '\r' !in parts[i] && '\n' !in parts[i] by {
      forall i | 0 <= i < |parts| ensures ' ' !in parts[i] && '\r' !in parts[i] && '\n' !in parts[i] {
        if i > 0 { assert parts[i] == args[i - 1]; }
      }
    }
    JoinFree(parts, '\r');
    JoinFree(parts, '\n');
    SplitJoin(parts, ' ');
  }

  /** A character in none of the pieces, and not the separator, is not in
      their join. */
  lemma {:induction false} JoinFree(parts: seq<string>, x: char)
    requires x != ' '
    requires forall i :: 0 <= i < |parts| ==> x !in parts[i]
    ensures x !in Join(parts, ' ')
  {
    if |parts| > 1 {
      JoinFree(parts[1..], x);
      assert x !in parts[0];
    }
  }

  /** The token `iter.next()` yields after `i` calls, or the error of
      `ok_or("missing <name>")`. */
  function Field(tokens: seq<string>, i: nat, name: string): Result<string, Error>
  {
    if i < |tokens| then Success(tokens[i]) else Failure(Missing(name))
  }

  /** `token.parse::<u32>()?`. */
  function Number(token: string): Result<u32, Error>
  {
    match ParseU32(token)
    case Success(n) => Success(n)
    case Failure(kind) => Failure(BadNumber(kind))
  }

  // ---------------------------------------------------------------------
  // Reply parsers

  /** The reply to STAT: the first token is skipped, the second is the
      message count and the third the maildrop size. A missing token is
      reported before the next one is looked at, and a count that does not
      parse before a missing size. */
  function ParseStat(line: string): (r: Result<MailboxStat, Error>)
    ensures var t := Split(line, ' ');
      && (r.Success? <==> |t| >= 3 && ParseU32(t[1]).Success? && ParseU32(t[2]).Success?)
      && (r.Success? ==> r.value == MailboxStat(ParseU32(t[1]).value, ParseU32(t[2]).value))
      && (|t| < 2 ==> r == Failure(Missing("message count")))
      && (|t| >= 2 && ParseU32(t[1]).Failure? ==> r == Failure(BadNumber(ParseU32(t[1]).error)))
      && (|t| == 2 && ParseU32(t[1]).Success? ==> r == Failure(Missing("maildrop size")))
      && (|t| >= 3 && ParseU32(t[1]).Success? && ParseU32(t[2]).Failure? ==> r == Failure(BadNumber(ParseU32(t[2]).error)))
  {
    var tokens := Split(line, ' ');
    match Field(tokens, 1, "message count")
    case Failure(e) => Failure(e)
    case Success(count) =>
      match Number(count)
      case Failure(e) => Failure(e)
      case Success(messageCount) =>
        match Field(tokens, 2, "maildrop size")
        case Failure(e) => Failure(e)
        case Success(size) =>
          match Number(size)
          case Failure(e) => Failure(e)
          case Success(maildropSize) => Success(MailboxStat(messageCount, maildropSize))
  }

  /** One line of the LIST body: message id, then size. `split` always
      yields a first token, so "missing id" cannot occur. */
  function ParseListEntry(line: string): (r: Result<MessageInfo, Error>)
    ensures r != Failure(Missing("id"))
    ensures var t := Split(line, ' ');
      && (r.Success? <==> |t| >= 2 && ParseU32(t[0]).Success? && ParseU32(t[1]).Success?)
      && (r.Success? ==> r.value == MessageInfo(ParseU32(t[0]).value, ParseU32(t[1]).value))
      && (ParseU32(t[0]).Failure? ==> r == Failure(BadNumber(ParseU32(t[0]).error)))
      && (|t| == 1 && ParseU32(t[0]).Success? ==> r == Failure(Missing("size")))
      && (|t| >= 2 && ParseU32(t[0]).Success? && ParseU32(t[1]).Failure? ==> r == Failure(BadNumber(ParseU32(t[1]).error)))
  {
    var tokens := Split(line, ' ');
    match Field(tokens, 0, "id")
    case Failure(e) => Failure(e)
    case Success(id) =>
      match Number(id)
      case Failure(e) => Failure(e)
      case Success(messageId) =>
        match Field(tokens, 1, "size")
        case Failure(e) => Failure(e)
        case Success(size) =>
          match Number(size)
          case Failure(e) => Failure(e)
          case Success(messageSize) => Success(MessageInfo(messageId, messageSize))
  }

  /** One line of the UIDL body: message id, then the unique id, kept as
      text. */
  function ParseUidEntry(line: string): (r: Result<MessageUidInfo, Error>)
    ensures r != Failure(Missing("id"))
    ensures var t := Split(line, ' ');
      && (r.Success? <==> |t| >= 2 && ParseU32(t[0]).Success?)
      && (r.Success? ==> r.value == MessageUidInfo(ParseU32(t[0]).value, t[1]))
      && (ParseU32(t[0]).Failure? ==> r == Failure(BadNumber(ParseU32(t[0]).error)))
      && (|t| == 1 && ParseU32(t[0]).Success? ==> r == Failure(Missing("unique id")))
  {
    var tokens := Split(line, ' ');
    match Field(tokens, 0, "id")
    case Failure(e) => Failure(e)
    case Success(id) =>
      match Number(id)
      case Failure(e) => Failure(e)
      case Success(messageId) =>
        match Field(tokens, 1, "unique id")
        case Failure(e) => Failure(e)
        case Success(uid) => Success(MessageUidInfo(messageId, uid))
  }

  /** The reply to `LIST <id>`: "+OK" and the message id are skipped
      unchecked; the third token is the size. */
  function ParseSizeReply(line: string): (r: Result<u32, Error>)
    ensures var t := Split(line, ' ');
      && (r.Success? <==> |t| >= 3 && ParseU32(t[2]).Success?)
      && (r.Success? ==> r.value == ParseU32(t[2]).value)
      && (|t| < 3 ==> r == Failure(Missing("size")))
      && (|t| >= 3 && ParseU32(t[2]).Failure? ==> r == Failure(BadNumber(ParseU32(t[2]).error)))
  {
    var tokens := Split(line, ' ');
    match Field(tokens, 2, "size")
    case Failure(e) => Failure(e)
    case Success(size) => Number(size)
  }

  /** The reply to `UIDL <id>`: the third token is the unique id. */
  function ParseUidReply(line: string): (r: Result<string, Error>)
    ensures var t := Split(line, ' ');
      && (r.Success? <==> |t| >= 3)
      && (r.Success? ==> r.value == t[2] && ' ' !in r.value)
      && (r.Failure? ==> r.error == Missing("unique id"))
  {
    Field(Split(line, ' '), 2, "unique id")
  }

  /** The `for line in lines` loops of `list` and `list_unique_ids`: one
      record per line, in order, or the error of the first line that does
      not parse. */
  function ParseEach<T>(lines: seq<string>, parse: string -> Result<T, Error>): (r: Result<seq<T>, Error>)
    ensures r.Success? <==> forall i :: 0 <= i < |lines| ==> parse(lines[i]).Success?
    ensures r.Success? ==> |r.value| == |lines| && forall i :: 0 <= i < |lines| ==> r.value[i] == parse(lines[i]).value
    ensures r.Failure? ==> exists i :: 0 <= i < |lines| && parse(lines[i]) == Failure(r.error) && forall j :: 0 <= j < i ==> parse(lines[j]).Success?
  {
    if lines == [] then Success([])
    else match parse(lines[0])
      case Failure(e) => Failure(e)
      case Success(x) =>
        match ParseEach(lines[1..], parse)
        case Failure(e) =>
          var i :| 0 <= i < |lines| - 1 && parse(lines[1..][i]) == Failure(e) && forall j :: 0 <= j < i ==> parse(lines[1..][j]).Success?;
          assert parse(lines[i + 1]) == Failure(e);
          assert forall j :: 0 <= j < i + 1 ==> parse(lines[j]).Success? by {
            forall j | 0 < j < i + 1 ensures parse(lines[j]).Success? {
              assert lines[j] == lines[1..][j - 1];
            }
          }
          Failure(e)
        case Success(xs) => Success([x] + xs)
  }

  /** `message.push_str(&line); message.push('\n')` over the body, as `top`
      builds its result. */
  function Concatenate(lines: seq<string>): (text: string)
    ensures text == [] <==> lines == []
    ensures lines != [] ==> text[|text| - 1] == '\n'
    ensures (forall i :: 0 <= i < |lines| ==> '\n' !in lines[i]) ==> multiset(text)['\n'] == |lines|
  {
    if lines == [] then []
    else
      assert (forall i :: 0 <= i < |lines| ==> '\n' !in lines[i]) ==> forall i :: 0 <= i < |lines| - 1 ==> '\n' !in lines[1..][i];
      lines[0] + "\n" + Concatenate(lines[1..])
  }

  /** `writer.write(line.as_bytes()); writer.write(b"\n")` over the body,
      as `retrieve` writes it. */
  function WriteLines(lines: seq<string>): (bytes: seq<byte>)
    ensures bytes == [] <==> lines == []
    ensures lines != [] ==> bytes[|bytes| - 1] == LineFeed
    ensures (forall i :: 0 <= i < |lines| ==> '\n' !in lines[i]) ==> multiset(bytes)[LineFeed] == |lines|
  {
    if lines == [] then []
    else
      assert (forall i :: 0 <= i < |lines| ==> '\n' !in lines[i]) ==> forall i :: 0 <= i < |lines| - 1 ==> '\n' !in lines[1..][i];
      assert '\n' !in lines[0] ==> LineFeed !in Encode(lines[0]) by {
        if '\n' !in lines[0] { EncodeNoLineFeed(lines[0]); }
      }
      Encode(lines[0]) + [LineFeed] + WriteLines(lines[1..])
  }

  /** What `retrieve` writes is the UTF-8 form of what `top` returns. */
  lemma {:induction false} WriteLinesEncode(lines: seq<string>)
    ensures WriteLines(lines) == Encode(Concatenate(lines))
  {
    if lines != [] {
      WriteLinesEncode(lines[1..]);
      EncodeAppend(lines[0] + "\n", Concatenate(lines[1..]));
      EncodeLineFeed(lines[0]);
    }
  }

  /** The text `top` returns splits back into the body lines, with one
      empty piece after the final line feed. */
  lemma {:induction false} ConcatenateSplit(lines: seq<string>)
    requires forall i :: 0 <= i < |lines| ==> '\n' !in lines[i]
    ensures Split(Concatenate(lines), '\n') == lines + [""]
  {
    ConcatenateJoin(lines);
    assert forall i :: 0 <= i < |lines| + 1 ==> '\n' !in (lines + [""])[i] by {
      forall i | 0 <= i < |lines| + 1 ensures '\n' !in (lines + [""])[i] {
        if i < |lines| { assert (lines + [""])[i] == lines[i]; }
      }
    }
    SplitJoin(lines + [""], '\n');
  }

  lemma {:induction false} ConcatenateJoin(lines: seq<string>)
    ensures Concatenate(lines) == Join(lines + [""], '\n')
  {
    if lines != [] {
      ConcatenateJoin(lines[1..]);
      assert (lines + [""])[1..] == lines[1..] + [""];
      assert |lines + [""]| > 1;
    }
  }

  // ---------------------------------------------------------------------
  // Commands

  /** `with_custom_certs` once the transport is up: a fresh line reader
      and the server's greeting, which must be positive. On a refused
      greeting the Rust code drops the half-built connection, whose `Drop`
      still writes "QUIT\r\n"; the model has no `Drop`, so nothing is
      written here. */
  function Connect(incoming: Script): (o: Reply<()>)
    ensures o.conn.Valid() && o.conn.outgoing == []
    ensures var g := ReadStatusLine(Conn(New(), incoming, []));
      && o.conn == g.conn
      && (o.result.Success? <==> g.result.Success?)
      && (g.result.Failure? ==> o.result.error == g.result.error)
  {
    var g := ReadStatusLine(Conn(New(), incoming, []));
    match g.result
    case Failure(e) => Reply(Failure(e), g.conn)
    case Success(_) => Reply(Success(()), g.conn)
  }

  /** `login`: USER, then PASS only once USER was accepted. */
  function Login(c: Conn, user: string, password: string): (o: Reply<()>)
    requires c.Valid()
    ensures o.conn.Valid()
    ensures var u := InvokeSingleLine(c, "USER " + user + "\r\n");
      && (u.result.Failure? ==> o == Reply(Failure(u.result.error), u.conn))
      && (u.result.Failure? ==> o.conn.outgoing == c.outgoing + Encode("USER " + user + "\r\n"))
      && (u.result.Success? ==>
        var p := InvokeSingleLine(u.conn, "PASS " + password + "\r\n");
        && o.conn == p.conn
        && o.conn.outgoing == c.outgoing + Encode("USER " + user + "\r\n") + Encode("PASS " + password + "\r\n")
        && (o.result.Success? <==> p.result.Success?)
        && (p.result.Failure? ==> o.result.error == p.result.error))
  {
    var u := InvokeSingleLine(c, "USER " + user + "\r\n");
    match u.result
    case Failure(e) => Reply(Failure(e), u.conn)
    case Success(_) =>
      var p := InvokeSingleLine(u.conn, "PASS " + password + "\r\n");
      match p.result
      case Failure(e) => Reply(Failure(e), p.conn)
      case Success(_) => Reply(Success(()), p.conn)
  }

  /** The status line of a single-line command, parsed. */
  function SingleLine<T>(c: Conn, command: string, parse: string -> Result<T, Error>): (o: Reply<T>)
    requires c.Valid()
    ensures o.conn.Valid()
    ensures o.conn.outgoing == c.outgoing + Encode(command)
    ensures var s := InvokeSingleLine(c, command);
      && o.conn == s.conn
      && (s.result.Failure? ==> o.result == Failure(s.result.error))
      && (s.result.Success? ==> o.result == parse(s.result.value))
  {
    var s := InvokeSingleLine(c, command);
    match s.result
    case Failure(e) => Reply(Failure(e), s.conn)
    case Success(line) => Reply(parse(line), s.conn)
  }

  /** The body of a multi-line command, parsed as a whole. */
  function MultiLine<T>(c: Conn, command: string, parse: seq<string> -> Result<T, Error>): (o: Reply<T>)
    requires c.Valid()
    ensures o.conn.Valid()
    ensures o.conn.outgoing == c.outgoing + Encode(command)
    ensures var m := InvokeMultiLine(c, command);
      && o.conn == m.conn
      && (m.result.Failure? ==> o.result == Failure(m.result.error))
      && (m.result.Success? ==> o.result == parse(m.result.value))
  {
    var m := InvokeMultiLine(c, command);
    match m.result
    case Failure(e) => Reply(Failure(e), m.conn)
    case Success(lines) => Reply(parse(lines), m.conn)
  }

  function Accept(line: string): Result<(), Error> { Success(()) }

  function ListAll(lines: seq<string>): Result<seq<MessageInfo>, Error> { ParseEach(lines, ParseListEntry) }

  function UidAll(lines: seq<string>): Result<seq<MessageUidInfo>, Error> { ParseEach(lines, ParseUidEntry) }

  function Written(lines: seq<string>): Result<seq<byte>, Error> { Success(WriteLines(lines)) }

  function Message(lines: seq<string>): Result<string, Error> { Success(Concatenate(lines)) }

  /** `stat`. */
  function Stat(c: Conn): (o: Reply<MailboxStat>)
    requires c.Valid()
    ensures o.conn.outgoing == c.outgoing + Encode("STAT\r\n")
    ensures o.result.Success? ==> ReadStatusLine(Send(c, "STAT\r\n")).result.Success?
  {
    SingleLine(c, "STAT\r\n", ParseStat)
  }

  /** `list`. */
  function List(c: Conn): (o: Reply<seq<MessageInfo>>)
    requires c.Valid()
    ensures o.conn.outgoing == c.outgoing + Encode("LIST\r\n")
    ensures o.result.Success? ==> InvokeMultiLine(c, "LIST\r\n").result.Success?
  {
    MultiLine(c, "LIST\r\n", ListAll)
  }

  /** `get_message_size`. */
  function GetMessageSize(c: Conn, id: u32): (o: Reply<u32>)
    requires c.Valid()
    ensures o.conn.outgoing == c.outgoing + Encode("LIST " + Decimal(id) + "\r\n")
    ensures o.result.Success? ==> ReadStatusLine(Send(c, "LIST " + Decimal(id) + "\r\n")).result.Success?
  {
    SingleLine(c, "LIST " + Decimal(id) + "\r\n", ParseSizeReply)
  }

  /** `retrieve`: the result carries the bytes handed to `writer`. The body
      is read completely before the first write, so a failed read writes
      nothing. */
  function Retrieve(c: Conn, id: u32): (o: Reply<seq<byte>>)
    requires c.Valid()
    ensures o.conn.outgoing == c.outgoing + Encode("RETR " + Decimal(id) + "\r\n")
    ensures o.result.Success? <==> InvokeMultiLine(c, "RETR " + Decimal(id) + "\r\n").result.Success?
  {
    MultiLine(c, "RETR " + Decimal(id) + "\r\n", Written)
  }

  /** `delete`. */
  function Delete(c: Conn, id: u32): (o: Reply<()>)
    requires c.Valid()
    ensures o.conn.outgoing == c.outgoing + Encode("DELE " + Decimal(id) + "\r\n")
    ensures o.result.Success? <==> ReadStatusLine(Send(c, "DELE " + Decimal(id) + "\r\n")).result.Success?
  {
    SingleLine(c, "DELE " + Decimal(id) + "\r\n", Accept)
  }

  /** `reset`. */
  function Reset(c: Conn): (o: Reply<()>)
    requires c.Valid()
    ensures o.conn.outgoing == c.outgoing + Encode("RSET\r\n")
    ensures o.result.Success? <==> ReadStatusLine(Send(c, "RSET\r\n")).result.Success?
  {
    SingleLine(c, "RSET\r\n", Accept)
  }

  /** `top`. */
  function Top(c: Conn, id: u32, lineCount: u32): (o: Reply<string>)
    requires c.Valid()
    ensures o.conn.outgoing == c.outgoing + Encode("TOP " + Decimal(id) + " " + Decimal(lineCount) + "\r\n")
    ensures o.result.Success? <==> InvokeMultiLine(c, "TOP " + Decimal(id) + " " + Decimal(lineCount) + "\r\n").result.Success?
  {
    MultiLine(c, "TOP " + Decimal(id) + " " + Decimal(lineCount) + "\r\n", Message)
  }

  /** `list_unique_ids`. */
  function ListUniqueIds(c: Conn): (o: Reply<seq<MessageUidInfo>>)
    requires c.Valid()
    ensures o.conn.outgoing == c.outgoing + Encode("UIDL\r\n")
    ensures o.result.Success? ==> InvokeMultiLine(c, "UIDL\r\n").result.Success?
  {
    MultiLine(c, "UIDL\r\n", UidAll)
  }

  /** `get_unique_id`. */
  function GetUniqueId(c: Conn, id: u32): (o: Reply<string>)
    requires c.Valid()
    ensures o.conn.outgoing == c.outgoing + Encode("UIDL " + Decimal(id) + "\r\n")
    ensures o.result.Success? ==> ReadStatusLine(Send(c, "UIDL " + Decimal(id) + "\r\n")).result.Success?
  {
    SingleLine(c, "UIDL " + Decimal(id) + "\r\n", ParseUidReply)
  }
}

=== FILE: text.dfy ===
/** The string operations the client's reply parsers rely on: `starts_with`,
    `split(' ')`, `parse::<u32>` and the `{}` formatting of a `u32`. */
module Text {
  import opened Base

  predicate StartsWith(s: string, prefix: string)
  {
    |prefix| <= |s| && s[..|prefix|] == prefix
  }

  /** Joins `parts` with `sep` between neighbours: the inverse of `Split`. */
  function Join(parts: seq<string>, sep: char): string
  {
    if parts == [] then []
    else if |parts| == 1 then parts[0]
    else parts[0] + [sep] + Join(parts[1..], sep)
  }

  /** `str::split(sep)` for a single-character pattern, collected: the pieces
      between separators, empty pieces included. Rust yields at least one
      piece, even for the empty string. */
  function Split(s: string, sep: char): (parts: seq<string>)
    ensures |parts| >= 1
    ensures forall i :: 0 <= i < |parts| ==> sep !in parts[i]
    ensures Join(parts, sep) == s
    decreases |s|
  {
    match IndexOf(s, sep)
    case None => [s]
    case Some(k) =>
      var rest := Split(s[k + 1..], sep);
      assert s == s[..k] + [sep] + s[k + 1..];
      [s[..k]] + rest
  }

  /** Splitting a join of separator-free pieces gives the pieces back. */
  lemma {:induction false} SplitJoin(parts: seq<string>, sep: char)
    requires |parts| >= 1
    requires forall i :: 0 <= i < |parts| ==> sep !in parts[i]
    ensures Split(Join(parts, sep), sep) == parts
  {
    if |parts| > 1 {
      var head := parts[0];
      var tail := Join(parts[1..], sep);
      var s := Join(parts, sep);
      var k := |head|;
      assert s == head + [sep] + tail;
      assert s[..k] == head;
      assert s[k] == sep;
      assert forall j :: 0 <= j < k ==> s[j] != sep by {
        assert forall j :: 0 <= j < k ==> s[j] == head[j];
      }
      IndexOfUnique(s, sep, k);
      assert s[k + 1..] == tail;
      SplitJoin(parts[1..], sep);
      assert parts == [head] + parts[1..];
    } else {
      assert IndexOf(parts[0], sep).None?;
    }
  }

  predicate IsDigit(c: char) { '0' <= c <= '9' }

  predicate AllDigits(s: string)
  {
    forall i :: 0 <= i < |s| ==> IsDigit(s[i])
  }

  function DigitValue(c: char): nat
    requires IsDigit(c)
  {
    c as int - '0' as int
  }

  function Pow10(n: nat): (p: nat)
    ensures p >= 1
  {
    if n == 0 then 1 else 10 * Pow10(n - 1)
  }

  /** The number a string of decimal digits denotes. */
  function DecValue(ds: string): nat
    requires AllDigits(ds)
  {
    if ds == [] then 0 else DigitValue(ds[0]) * Pow10(|ds| - 1) + DecValue(ds[1..])
  }

  lemma {:induction false} DecValueBound(ds: string)
    requires AllDigits(ds)
    ensures DecValue(ds) < Pow10(|ds|)
  {
    if ds != [] {
      assert AllDigits(ds[1..]) by {
        assert forall i :: 0 <= i < |ds| - 1 ==> ds[1..][i] == ds[i + 1];
      }
      DecValueBound(ds[1..]);
      var d := DigitValue(ds[0]);
      var p := Pow10(|ds| - 1);
      MulLeft(d, 9, p);
      assert Pow10(|ds|) == 10 * p;
    }
  }

  lemma MulLeft(a: nat, b: nat, c: nat)
    requires a <= b
    ensures a * c <= b * c
  {
  }

  lemma {:induction false} DecValueSnoc(ds: string, c: char)
    requires AllDigits(ds) && IsDigit(c)
    ensures AllDigits(ds + [c])
    ensures DecValue(ds + [c]) == DecValue(ds) * 10 + DigitValue(c)
  {
    var t := ds + [c];
    assert AllDigits(t) by {
      forall i | 0 <= i < |t| ensures IsDigit(t[i]) {
        if i < |ds| { assert t[i] == ds[i]; }
      }
    }
    if ds != [] {
      assert t[0] == ds[0];
      assert t[1..] == ds[1..] + [c];
      DecValueSnoc(ds[1..], c);
      var d := DigitValue(ds[0]);
      var p := Pow10(|ds| - 1);
      var w := DecValue(ds[1..]);
      assert Pow10(|t| - 1) == p * 10;
      assert DecValue(t) == d * (p * 10) + (w * 10 + DigitValue(c));
      assert DecValue(ds) == d * p + w;
      Shift(d, p, w, DigitValue(c));
    } else {
      assert t == [c];
    }
  }

  lemma Shift(d: nat, p: nat, w: nat, e: nat)
    ensures d * (p * 10) + (w * 10 + e) == (d * p + w) * 10 + e
  {
  }

  /** The digits loop of `u32::from_str`: each character is checked to be a
      digit before the accumulated value is checked for overflow. */
  function Accumulate(ds: string, acc: u32): (r: Result<u32, IntErrorKind>)
    ensures r.Success? <==> AllDigits(ds) && acc * Pow10(|ds|) + DecValue(ds) < U32Limit
    ensures r.Success? ==> r.value == acc * Pow10(|ds|) + DecValue(ds)
    ensures r.Failure? ==> r.error != Empty
    decreases |ds|
  {
    if ds == [] then Success(acc)
    else if !IsDigit(ds[0]) then Failure(InvalidDigit)
    else
      var v := acc * 10 + DigitValue(ds[0]);
      if v >= U32Limit then
        AccumulateOverflow(ds, acc);
        Failure(PosOverflow)
      else
        AccumulateStep(ds, acc);
        Accumulate(ds[1..], v)
  }

  lemma AccumulateStep(ds: string, acc: nat)
    requires ds != [] && IsDigit(ds[0])
    ensures AllDigits(ds) <==> AllDigits(ds[1..])
    ensures AllDigits(ds) ==>
      acc * Pow10(|ds|) + DecValue(ds) == (acc * 10 + DigitValue(ds[0])) * Pow10(|ds| - 1) + DecValue(ds[1..])
  {
    assert forall i :: 0 < i < |ds| ==> ds[i] == ds[1..][i - 1];
    var p := Pow10(|ds| - 1);
    assert acc * Pow10(|ds|) == acc * 10 * p;
    assert (acc * 10 + DigitValue(ds[0])) * p == acc * 10 * p + DigitValue(ds[0]) * p;
  }

  /** Once the running value passes the limit, the whole number does too. */
  lemma AccumulateOverflow(ds: string, acc: nat)
    requires ds != [] && IsDigit(ds[0])
    requires acc * 10 + DigitValue(ds[0]) >= U32Limit
    ensures AllDigits(ds) ==> acc * Pow10(|ds|) + DecValue(ds) >= U32Limit
  {
    if AllDigits(ds) {
      AccumulateStep(ds, acc);
      var v := acc * 10 + DigitValue(ds[0]);
      var p := Pow10(|ds| - 1);
      var w := DecValue(ds[1..]);
      assert acc * Pow10(|ds|) + DecValue(ds) == v * p + w;
      AtLeast(v, p, w);
    }
  }

  lemma AtLeast(v: nat, p: nat, w: nat)
    requires p >= 1
    ensures v * p + w >= v
  {
    MulLeft(1, p, v);
  }

  /** The digits `u32::from_str` reads: everything after one optional '+'. */
  function Digits(s: string): string
  {
    if |s| > 0 && s[0] == '+' then s[1..] else s
  }

  /** The length of the run of digits `ds` starts with. */
  function DigitRun(ds: string): (k: nat)
    ensures k <= |ds| && AllDigits(ds[..k])
    ensures k < |ds| ==> !IsDigit(ds[k])
  {
    if ds == [] || !IsDigit(ds[0]) then 0
    else
      var k := 1 + DigitRun(ds[1..]);
      assert forall i :: 0 < i < k ==> ds[..k][i] == ds[1..][..k - 1][i - 1];
      k
  }

  /** Which error the digits loop stops with: the value of the leading run
      of digits, prefixed by `acc`, decides. Every longer prefix of the run
      has a value at least as large, so the loop overflows exactly when the
      whole run does; otherwise it stops at the first non-digit. */
  lemma {:induction false} AccumulateError(ds: string, acc: u32)
    ensures var k := DigitRun(ds); var v := acc * Pow10(k) + DecValue(ds[..k]);
      && (v >= U32Limit ==> Accumulate(ds, acc) == Failure(PosOverflow))
      && (v < U32Limit && k < |ds| ==> Accumulate(ds, acc) == Failure(InvalidDigit))
    decreases |ds|
  {
    var k := DigitRun(ds);
    if ds != [] && IsDigit(ds[0]) {
      var run := ds[..k];
      var v := acc * 10 + DigitValue(ds[0]);
      assert run[0] == ds[0] && run[1..] == ds[1..][..k - 1];
      AccumulateStep(run, acc);
      if v >= U32Limit {
        AtLeast(v, Pow10(k - 1), DecValue(run[1..]));
      } else {
        AccumulateError(ds[1..], v);
      }
    } else {
      assert ds[..k] == [];
    }
  }

  /** `s.parse::<u32>()`. */
  function ParseU32(s: string): (r: Result<u32, IntErrorKind>)
    ensures r == Failure(Empty) <==> s == []
    ensures r.Success? <==> |Digits(s)| > 0 && AllDigits(Digits(s)) && DecValue(Digits(s)) < U32Limit
    ensures r.Success? ==> r.value == DecValue(Digits(s))
    ensures s != [] ==>
      var ds := Digits(s); var k := DigitRun(ds);
      && (DecValue(ds[..k]) >= U32Limit ==> r == Failure(PosOverflow))
      && (DecValue(ds[..k]) < U32Limit && (k < |ds| || ds == []) ==> r == Failure(InvalidDigit))
  {
    if s == [] then Failure(Empty)
    else if s == "+" || s == "-" then
      assert Digits(s)[..0] == [];
      Failure(InvalidDigit)
    else
      AccumulateError(Digits(s), 0);
      Accumulate(Digits(s), 0)
  }

  function DigitChar(d: nat): (c: char)
    requires d < 10
    ensures IsDigit(c) && DigitValue(c) == d
  {
    ('0' as int + d) as char
  }

  /** `format!("{}", n)`: decimal, no sign, no leading zeros. */
  function Decimal(n: nat): (s: string)
    ensures |s| > 0 && AllDigits(s) && DecValue(s) == n
    ensures ' ' !in s && '\n' !in s
    ensures s[0] == '0' ==> s == "0"
  {
    if n < 10 then
      var s := [DigitChar(n)];
      assert s[1..] == [];
      s
    else
      var init := Decimal(n / 10);
      DecValueSnoc(init, DigitChar(n % 10));
      assert (init + [DigitChar(n % 10)])[0] == init[0];
      init + [DigitChar(n % 10)]
  }

  /** Round trip: the client reads back every `u32` the `{}` formatting wrote. */
  lemma ParseDecimal(n: u32)
    ensures ParseU32(Decimal(n)) == Success(n)
  {
    assert Decimal(n)[0] != '+';
  }

  /** A `u32` takes at most ten decimal digits. */
  lemma DecimalU32(n: u32)
    ensures |Decimal(n)| <= 10
  {
    DecimalLength(n, 10);
  }

  lemma {:induction false} DecimalLength(n: nat, k: nat)
    requires 1 <= k && n < Pow10(k)
    ensures |Decimal(n)| <= k
  {
    if n >= 10 {
      assert k >= 2;
      DecimalLength(n / 10, k - 1);
    }
  }
}

=== FILE: utf8.dfy ===
/** UTF-8 as Rust's `str::from_utf8` and `str::as_bytes` see it, and the
    whitespace trimming of `str::trim`.

    Decoding accepts exactly the well-formed byte sequences of Table 3-7 of
    the Unicode Standard (no overlong forms, no surrogates, nothing above
    U+10FFFF); encoding is the shortest form. */
module Utf8 {
  import opened Base

  const LineFeed: byte := 0x0A

  predicate IsCont(b: byte) { 0x80 <= b <= 0xBF }

  /** How many bytes UTF-8 uses for the scalar value `n`: the fewest
      that hold it. */
  function Width(n: nat): (w: nat)
    ensures 1 <= w <= 4
  {
    if n < 0x80 then 1 else if n < 0x800 then 2 else if n < 0x1_0000 then 3 else 4
  }

  /** The marker bits of a lead byte that starts a `w`-byte sequence. */
  function Mark(w: nat): byte
  {
    if w == 2 then 0xC0 else if w == 3 then 0xE0 else 0xF0
  }

  /** How many values the payload bits of such a lead byte can take. */
  function Room(w: nat): nat
  {
    if w == 2 then 32 else if w == 3 then 16 else 8
  }

  /** A lead byte and the `k` continuation bytes after it, laid out as in
      section 3 of RFC 3629: the low six bits of `n` go into the last
      byte, the next six into the one before, and the bits left over,
      masked to the payload of the lead byte, after the marker of a
      `w`-byte sequence. */
  function Emit(n: nat, k: nat, w: nat): (bs: seq<byte>)
    requires 2 <= w <= 4
    ensures |bs| == k + 1
    ensures bs[0] >= 0xC0
    ensures forall i :: 1 <= i < |bs| ==> IsCont(bs[i])
    decreases k
  {
    if k == 0 then [Mark(w) + n % Room(w)] else Emit(n / 64, k - 1, w) + [0x80 + n % 64]
  }

  /** The UTF-8 encoding of one Unicode scalar value. */
  function EncodeChar(c: char): (bs: seq<byte>)
    ensures 1 <= |bs| <= 4
    ensures bs[0] < 0x80 <==> |bs| == 1
    ensures forall i :: 1 <= i < |bs| ==> IsCont(bs[i])
  {
    var n := c as int;
    var w := Width(n);
    if w == 1 then [n] else Emit(n, w - 1, w)
  }

  /** The two-byte form: 110xxxxx 10xxxxxx. */
  lemma EncodeChar2(c: char)
    requires 0x80 <= c as int < 0x800
    ensures var n := c as int; var bs := EncodeChar(c);
      |bs| == 2 && bs[0] as int == 0xC0 + n / 64 && bs[1] as int == 0x80 + n % 64
  {
    var n := c as int;
    assert n / 64 < 32;
    assert EncodeChar(c) == Emit(n, 1, 2);
    assert Emit(n, 1, 2) == Emit(n / 64, 0, 2) + [0x80 + n % 64];
  }

  /** The three-byte form: 1110xxxx 10xxxxxx 10xxxxxx. */
  lemma EncodeChar3(c: char)
    requires 0x800 <= c as int < 0x1_0000
    ensures var n := c as int; var bs := EncodeChar(c);
      && |bs| == 3 && bs[0] as int == 0xE0 + n / 64 / 64
      && bs[1] as int == 0x80 + n / 64 % 64 && bs[2] as int == 0x80 + n % 64
  {
    var n := c as int;
    assert n / 64 / 64 < 16;
    assert EncodeChar(c) == Emit(n, 2, 3);
    assert Emit(n, 2, 3) == Emit(n / 64, 1, 3) + [0x80 + n % 64];
    assert Emit(n / 64, 1, 3) == Emit(n / 64 / 64, 0, 3) + [0x80 + n / 64 % 64];
  }

  /** The four-byte form: 11110xxx 10xxxxxx 10xxxxxx 10xxxxxx. */
  lemma EncodeChar4(c: char)
    requires 0x1_0000 <= c as int
    ensures var n := c as int; var bs := EncodeChar(c);
      && |bs| == 4 && bs[0] as int == 0xF0 + n / 64 / 64 / 64
      && bs[1] as int == 0x80 + n / 64 / 64 % 64 && bs[2] as int == 0x80 + n / 64 % 64
      && bs[3] as int == 0x80 + n % 64
  {
    var n := c as int;
    assert n / 64 / 64 / 64 < 8;
    assert EncodeChar(c) == Emit(n, 3, 4);
    assert Emit(n, 3, 4) == Emit(n / 64, 2, 4) + [0x80 + n % 64];
    assert Emit(n / 64, 2, 4) == Emit(n / 64 / 64, 1, 4) + [0x80 + n / 64 % 64];
    assert Emit(n / 64 / 64, 1, 4) == Emit(n / 64 / 64 / 64, 0, 4) + [0x80 + n / 64 / 64 % 64];
  }

  /** `s.as_bytes()`. */
  function Encode(s: string): (bs: seq<byte>)
    ensures |s| <= |bs| <= 4 * |s|
  {
    if s == [] then [] else EncodeChar(s[0]) + Encode(s[1..])
  }

  /** Decodes the first scalar value of `bs`, returning it with the number
      of bytes it occupies, or None if `bs` does not start with a
      well-formed sequence. */
  function DecodeChar(bs: seq<byte>): (r: Option<(char, nat)>)
    requires |bs| > 0
    ensures r.Some? ==> 1 <= r.value.1 <= |bs| && r.value.1 <= 4
  {
    var b0: int := bs[0];
    if b0 < 0x80 then
      Some((b0 as char, 1))
    else if 0xC2 <= b0 <= 0xDF then
      if |bs| >= 2 && IsCont(bs[1])
      then Some((((b0 - 0xC0) * 64 + (bs[1] as int - 0x80)) as char, 2))
      else None
    else if 0xE0 <= b0 <= 0xEF then
      var lo := if b0 == 0xE0 then 0xA0 else 0x80;
      var hi := if b0 == 0xED then 0x9F else 0xBF;
      if |bs| >= 3 && lo <= bs[1] <= hi && IsCont(bs[2])
      then Some((((b0 - 0xE0) * 4096 + (bs[1] as int - 0x80) * 64 + (bs[2] as int - 0x80)) as char, 3))
      else None
    else if 0xF0 <= b0 <= 0xF4 then
      var lo := if b0 == 0xF0 then 0x90 else 0x80;
      var hi := if b0 == 0xF4 then 0x8F else 0xBF;
      if |bs| >= 4 && lo <= bs[1] <= hi && IsCont(bs[2]) && IsCont(bs[3])
      then Some((((b0 - 0xF0) * 0x4_0000 + (bs[1] as int - 0x80) * 4096 + (bs[2] as int - 0x80) * 64 + (bs[3] as int - 0x80)) as char, 4))
      else None
    else
      None
  }

  /** `str::from_utf8`: the text `bs` encodes, or None if it is not valid UTF-8. */
  function Decode(bs: seq<byte>): (r: Option<string>)
    ensures r.Some? ==> |r.value| <= |bs| <= 4 * |r.value|
    decreases |bs|
  {
    if bs == [] then Some([])
    else match DecodeChar(bs)
      case None => None
      case Some((c, n)) =>
        match Decode(bs[n..])
        case None => None
        case Some(t) => Some([c] + t)
  }

  lemma DecodeEncodeChar(c: char, rest: seq<byte>)
    ensures DecodeChar(EncodeChar(c) + rest) == Some((c, |EncodeChar(c)|))
  {
    var n := c as int;
    if n < 0x80 {
    } else if n < 0x800 {
      DecodeEncode2(c, rest);
    } else if n < 0x1_0000 {
      DecodeEncode3(c, rest);
    } else {
      DecodeEncode4(c, rest);
    }
  }

  lemma DecodeEncode2(c: char, rest: seq<byte>)
    requires 0x80 <= c as int < 0x800
    ensures DecodeChar(EncodeChar(c) + rest) == Some((c, 2))
  {
    var n := c as int;
    EncodeChar2(c);
    var bs := EncodeChar(c) + rest;
    assert bs[0] as int == 0xC0 + n / 64 && bs[1] as int == 0x80 + n % 64;
  }

  lemma DecodeEncode3(c: char, rest: seq<byte>)
    requires 0x800 <= c as int < 0x1_0000
    ensures DecodeChar(EncodeChar(c) + rest) == Some((c, 3))
  {
    var n := c as int;
    EncodeChar3(c);
    var bs := EncodeChar(c) + rest;
    var q1, r1 := n / 64, n % 64;
    var q2, r2 := q1 / 64, q1 % 64;
    assert bs[0] as int == 0xE0 + q2 && bs[1] as int == 0x80 + r2 && bs[2] as int == 0x80 + r1;
    assert q2 * 4096 + r2 * 64 + r1 == n;
  }

  lemma DecodeEncode4(c: char, rest: seq<byte>)
    requires 0x1_0000 <= c as int
    ensures DecodeChar(EncodeChar(c) + rest) == Some((c, 4))
  {
    var n := c as int;
    EncodeChar4(c);
    var bs := EncodeChar(c) + rest;
    var q1, r1 := n / 64, n % 64;
    var q2, r2 := q1 / 64, q1 % 64;
    var q3, r3 := q2 / 64, q2 % 64;
    assert bs[0] as int == 0xF0 + q3 && bs[1] as int == 0x80 + r3 && bs[2] as int == 0x80 + r2 && bs[3] as int == 0x80 + r1;
    assert q3 * 0x4_0000 + r3 * 4096 + r2 * 64 + r1 == n;
  }

  /** Euclidean division by the size of a UTF-8 payload field. */
  lemma Split64(q: int, r: int)
    requires q >= 0 && 0 <= r < 64
    ensures (q * 64 + r) / 64 == q && (q * 64 + r) % 64 == r
  {
  }

  lemma {:induction false} EncodeAppend(a: string, b: string)
    ensures Encode(a + b) == Encode(a) + Encode(b)
  {
    if a == [] {
      assert a + b == b;
    } else {
      var c, t := a[0], a[1..];
      assert a == [c] + t;
      assert a + b == [c] + (t + b);
      calc {
        Encode(a + b);
        { EncodeCons(c, t + b); }
        EncodeChar(c) + Encode(t + b);
        { EncodeAppend(t, b); }
        EncodeChar(c) + (Encode(t) + Encode(b));
        (EncodeChar(c) + Encode(t)) + Encode(b);
        { EncodeCons(c, t); }
        Encode(a) + Encode(b);
      }
    }
  }

  /** Round trip: decoding what `as_bytes` produced gives the text back. */
  lemma {:induction false} DecodeEncode(s: string)
    ensures Decode(Encode(s)) == Some(s)
  {
    if s != [] {
      var head := EncodeChar(s[0]);
      var tail := Encode(s[1..]);
      DecodeEncodeChar(s[0], tail);
      assert (head + tail)[|head|..] == tail;
      DecodeEncode(s[1..]);
      assert [s[0]] + s[1..] == s;
    }
  }

  lemma EncodeDecodeChar(bs: seq<byte>)
    requires |bs| > 0 && DecodeChar(bs).Some?
    ensures EncodeChar(DecodeChar(bs).value.0) == bs[..DecodeChar(bs).value.1]
  {
    var b0: int := bs[0];
    if b0 < 0x80 {
      assert bs[..1] == [bs[0]];
    } else if b0 <= 0xDF {
      EncodeDecode2(bs);
    } else if b0 <= 0xEF {
      EncodeDecode3(bs);
    } else {
      EncodeDecode4(bs);
    }
  }

  lemma EncodeDecode2(bs: seq<byte>)
    requires |bs| >= 2 && 0xC2 <= bs[0] <= 0xDF && IsCont(bs[1])
    ensures DecodeChar(bs).Some? && EncodeChar(DecodeChar(bs).value.0) == bs[..2]
  {
    var a := bs[0] as int - 0xC0;
    var b := bs[1] as int - 0x80;
    Split64(a, b);
    EncodeChar2(DecodeChar(bs).value.0);
    assert bs[..2] == [bs[0], bs[1]];
  }

  lemma EncodeDecode3(bs: seq<byte>)
    requires |bs| >= 3 && 0xE0 <= bs[0] <= 0xEF && DecodeChar(bs).Some?
    ensures EncodeChar(DecodeChar(bs).value.0) == bs[..3]
  {
    var a := bs[0] as int - 0xE0;
    var b := bs[1] as int - 0x80;
    var d := bs[2] as int - 0x80;
    var n := a * 4096 + b * 64 + d;
    assert DecodeChar(bs).value.0 as int == n;
    Split64(a * 64 + b, d);
    Split64(a, b);
    EncodeChar3(DecodeChar(bs).value.0);
    assert bs[..3] == [bs[0], bs[1], bs[2]];
  }

  lemma EncodeDecode4(bs: seq<byte>)
    requires |bs| >= 4 && 0xF0 <= bs[0] <= 0xF4 && DecodeChar(bs).Some?
    ensures EncodeChar(DecodeChar(bs).value.0) == bs[..4]
  {
    var a := bs[0] as int - 0xF0;
    var b := bs[1] as int - 0x80;
    var d := bs[2] as int - 0x80;
    var e := bs[3] as int - 0x80;
    var n := a * 0x4_0000 + b * 4096 + d * 64 + e;
    assert DecodeChar(bs).value.0 as int == n;
    Split64(a * 4096 + b * 64 + d, e);
    Split64(a * 64 + b, d);
    Split64(a, b);
    EncodeChar4(DecodeChar(bs).value.0);
    assert bs[..4] == [bs[0], bs[1], bs[2], bs[3]];
  }

  lemma {:induction false} EncodeDecode(bs: seq<byte>)
    requires Decode(bs).Some?
    ensures Encode(Decode(bs).value) == bs
  {
    if bs != [] {
      DecodeStep(bs);
      var c := DecodeChar(bs).value.0;
      var n := DecodeChar(bs).value.1;
      var t := Decode(bs[n..]).value;
      EncodeDecodeChar(bs);
      EncodeDecode(bs[n..]);
      EncodeGlue(bs, c, n, t);
    }
  }

  lemma EncodeGlue(bs: seq<byte>, c: char, n: nat, t: string)
    requires n <= |bs| && EncodeChar(c) == bs[..n] && Encode(t) == bs[n..]
    ensures Encode([c] + t) == bs
  {
    EncodeCons(c, t);
    assert bs == bs[..n] + bs[n..];
  }

  /** One step of `Decode`: the first scalar value followed by the rest. */
  lemma DecodeStep(bs: seq<byte>)
    requires bs != [] && Decode(bs).Some?
    ensures DecodeChar(bs).Some? && Decode(bs[DecodeChar(bs).value.1..]).Some?
    ensures Decode(bs).value == [DecodeChar(bs).value.0] + Decode(bs[DecodeChar(bs).value.1..]).value
  {
  }

  lemma EncodeCons(c: char, t: string)
    ensures Encode([c] + t) == EncodeChar(c) + Encode(t)
  {
    assert ([c] + t)[0] == c;
    assert ([c] + t)[1..] == t;
  }

  /** A line feed byte appears in encoded text only where the text has '\n':
      every byte of a multi-byte sequence is at least 0x80. */
  lemma {:induction false} EncodeNoLineFeed(s: string)
    requires '\n' !in s
    ensures LineFeed !in Encode(s)
  {
    if s != [] {
      EncodeNoLineFeed(s[1..]);
      var head := EncodeChar(s[0]);
      assert LineFeed !in head by {
        if |head| == 1 {
          assert head[0] == s[0] as int;
        }
      }
    }
  }

  /** The characters with the Unicode White_Space property, which
      `char::is_whitespace` and therefore `str::trim` use. */
  predicate IsWhitespace(c: char)
  {
    || '\U{0009}' <= c <= '\U{000D}'
    || c == ' '
    || c == '\U{0085}'
    || c == '\U{00A0}'
    || c == '\U{1680}'
    || '\U{2000}' <= c <= '\U{200A}'
    || c == '\U{2028}'
    || c == '\U{2029}'
    || c == '\U{202F}'
    || c == '\U{205F}'
    || c == '\U{3000}'
  }

  predicate AllWhitespace(s: string)
  {
    forall i :: 0 <= i < |s| ==> IsWhitespace(s[i])
  }

  function TrimStart(s: string): (r: string)
    ensures |r| <= |s| && r == s[|s| - |r|..]
    ensures AllWhitespace(s[..|s| - |r|])
    ensures r == [] || !IsWhitespace(r[0])
  {
    if s == [] || !IsWhitespace(s[0]) then s else TrimStart(s[1..])
  }

  function TrimEnd(s: string): (r: string)
    ensures |r| <= |s| && r == s[..|r|]
    ensures AllWhitespace(s[|r|..])
    ensures r == [] || !IsWhitespace(r[|r| - 1])
  {
    if s == [] || !IsWhitespace(s[|s| - 1]) then s else TrimEnd(s[..|s| - 1])
  }

  /** Leading whitespace in front of `t` is cut off. */
  lemma {:induction false} TrimStartWhitespace(w: string, t: string)
    requires AllWhitespace(w)
    ensures TrimStart(w + t) == TrimStart(t)
  {
    if w != [] {
      assert (w + t)[0] == w[0];
      assert (w + t)[1..] == w[1..] + t;
      TrimStartWhitespace(w[1..], t);
    } else {
      assert w + t == t;
    }
  }

  /** Trailing whitespace after `t` is cut off. */
  lemma {:induction false} TrimEndWhitespace(t: string, w: string)
    requires AllWhitespace(w)
    ensures TrimEnd(t + w) == TrimEnd(t)
  {
    if w != [] {
      var u := t + w;
      assert u[|u| - 1] == w[|w| - 1];
      assert u[..|u| - 1] == t + w[..|w| - 1];
      TrimEndWhitespace(t, w[..|w| - 1]);
    } else {
      assert t + w == t;
    }
  }

  /** `str::trim`: `s` without its leading and trailing whitespace. */
  function Trim(s: string): (r: string)
    ensures |r| <= |s|
    ensures r == [] || (!IsWhitespace(r[0]) && !IsWhitespace(r[|r| - 1]))
  {
    TrimEnd(TrimStart(s))
  }

  /** What `trim` leaves: a contiguous piece of `s` that neither starts nor
      ends with whitespace, with only whitespace cut off on either side. */
  lemma TrimCharacterized(s: string)
    ensures |Trim(s)| <= |s|
    ensures exists i :: 0 <= i <= |s| - |Trim(s)| && Trim(s) == s[i..i + |Trim(s)|] && AllWhitespace(s[..i]) && AllWhitespace(s[i + |Trim(s)|..])
    ensures Bare(Trim(s))
  {
    var a := TrimStart(s);
    var i := |s| - |a|;
    PieceOfSuffix(s, i, a, Trim(s));
    TrimBare(s);
  }

  /** `r`, a prefix of the suffix `a` of `s`, is the slice `s[i..i + |r|]`,
      and what lies around it is what lies around `a` and around `r` in `a`. */
  lemma PieceOfSuffix(s: string, i: nat, a: string, r: string)
    requires i <= |s| && a == s[i..] && AllWhitespace(s[..i])
    requires |r| <= |a| && r == a[..|r|] && AllWhitespace(a[|r|..])
    ensures i + |r| <= |s| && r == s[i..i + |r|]
    ensures AllWhitespace(s[..i]) && AllWhitespace(s[i + |r|..])
  {
    SliceOfSuffix(s, i, |r|);
  }

  lemma TrimBare(s: string)
    ensures Bare(Trim(s))
  {
    var a := TrimStart(s);
    var r := TrimEnd(a);
    if r != [] {
      assert r[0] == a[0];
    }
  }

  /** Text that neither starts nor ends with whitespace. */
  predicate Bare(s: string)
  {
    s == [] || (!IsWhitespace(s[0]) && !IsWhitespace(s[|s| - 1]))
  }

  /** Bare text is left as it is. */
  lemma TrimUnchanged(s: string)
    requires Bare(s)
    ensures Trim(s) == s
  {
  }

  /** A line sent with CR LF comes back from `trim` without its carriage
      return and otherwise unchanged, as long as it is bare. */
  lemma TrimCarriageReturn(s: string)
    requires Bare(s)
    ensures Trim(s + "\r") == s
  {
    var t := s + "\r";
    assert t[|t| - 1] == '\r';
    if s == [] {
      assert TrimStart(t) == TrimStart(t[1..]);
      assert t[1..] == [];
    } else {
      assert t[0] == s[0];
      assert TrimStart(t) == t;
      assert t[..|t| - 1] == s;
      assert TrimEnd(t) == TrimEnd(s);
    }
  }

  /** The bytes of a line sent with CR LF, before the line feed. */
  lemma EncodeCarriageReturn(s: string)
    ensures Encode(s + "\r") == Encode(s) + [0x0D]
  {
    EncodeAppend(s, "\r");
  }

  /** The bytes of a line followed by its line feed. */
  lemma EncodeLineFeed(s: string)
    ensures Encode(s + "\n") == Encode(s) + [LineFeed]
  {
    EncodeAppend(s, "\n");
  }

  /** Trimming twice is trimming once. */
  lemma TrimIdempotent(s: string)
    ensures Trim(Trim(s)) == Trim(s)
  {
    TrimCharacterized(s);
    TrimUnchanged(Trim(s));
  }
}
